=== FILE: README.md ===
# Notion blog: block renderer and post projection

This project models the two pure transformations at the core of a Notion-backed
blog and proves properties about them.

- **The block renderer** (`components/post/notion-renderer.tsx`). `NotionRenderer`
  takes a page's top-level content blocks. It first runs `groupListItems`, a single
  left-to-right pass that folds each run of consecutive bulleted (or numbered) list
  items into a list group and passes every other block through. It then emits a
  `ul`/`ol` per group and renders every block through `Block`. `Block` is a dispatch
  on the block kind with a few literal fallbacks. `RichText` renders each text
  fragment as a `span` inside its style wrappers, or as a bare `code`, with a link
  anchor outermost.
- **The post projection** (`types/post.ts`). `parsePost` maps a page's property bag
  onto the fixed `Post` record. Six fields are probed from the bag: title,
  category, tags, publishedAt, status and description. Each walks the bag in
  iteration order, takes the first property that qualifies and stops there,
  falling back to a literal default. The other fields are not probed: `id` is
  kept, `slug` is the id without dashes and `coverImage` is read from the page's
  `cover`. `richTextToPlainText` joins fragment texts.

The modules follow the program's structure:

| file | module | models |
|---|---|---|
| `wrappers.dfy` | `Wrappers` | `Option` |
| `rich_text.dfy` | `RichText` | a rich-text fragment (`plain_text`, annotations, `href`) and the plain-text join |
| `markup.dfy` | `MarkupTree` | the rendered tree `Elem(tag, attrs, children) \| Text \| Empty`, its visible text and tag search |
| `blocks.dfy` | `Blocks` | a block: kind-specific content and an optional child list |
| `list_grouping.dfy` | `ListGrouping` | `groupListItems`, as the source's loop and as a reference definition |
| `notion_renderer.dfy` | `NotionRenderer` | `RichText`, `Block`, `NotionRenderer` |
| `post.dfy` | `PostModel` | `parsePost`, `richTextToPlainText` |

Modelling choices:

- JavaScript truthiness is written out:
  - an empty `href` adds no anchor;
  - an empty `code.language` shows `plaintext`;
  - a date whose `start` is empty is skipped;
  - an absent `children` (`NoChildren`) renders nothing, but an attached empty array (`Children([])`) is truthy and renders an empty container.
- A React fragment's elements are spliced into the parent's children. Conditional children that are `false` are omitted. A `Block` that returns `null` is `Empty`.
- The property bag is the ordered list `Object.entries` walks, so "first match wins" and `break` are explicit.
- The renderer groups list items only at the top level (`components/post/notion-renderer.tsx:333`). Children of list items, toggles and tables go through `Block` one by one and are never grouped. The model does the same. `NestedItemsNotRegrouped` and `TopLevelItemWrapped` show the difference.
- When `annotations.code` is set, the fragment becomes `code` around the bare text. This replaces any bold, italic, strikethrough or underline wrapper already built; only the link still goes around it. The model follows this (`CodeDiscardsStyles`).
- Only the children of list items, toggles and tables are rendered. Other kinds ignore theirs (`ChildrenIgnored`).

## Model

| member | source | states |
|---|---|---|
| ListGrouping.GroupListItems | components/post/notion-renderer.tsx:300-330 | The loop's output flattens back to the input, in order; every group is non-empty and holds only items of its kind; no two adjacent groups share a kind; and it equals the reference grouping `Group` |
| ListGrouping.GroupIsGrouping | components/post/notion-renderer.tsx:300-330 | The reference grouping flattens back to its input, is well formed (singles are non-list blocks, groups non-empty and homogeneous) and maximal |
| ListGrouping.GroupingUnique | components/post/notion-renderer.tsx:300-330 | Any sequence that flattens to the input, is well formed and is maximal is the reference grouping: the three invariants determine the output |
| ListGrouping.GroupCons | components/post/notion-renderer.tsx:305-325 | Prepending a non-list block adds a single. Prepending a list item joins the first group when it has the same kind, and otherwise opens a new one-item group |
| ListGrouping.PrependKeepsGrouping | components/post/notion-renderer.tsx:309-310 | Putting a well-formed item separated from the first one in front of a grouping gives a grouping of the extended input |
| ListGrouping.JoinFirstKeepsGrouping | components/post/notion-renderer.tsx:306-307 | Adding a same-kind list item at the front of the first group keeps all three invariants |
| ListGrouping.AppendKeepsGrouping | components/post/notion-renderer.tsx:320-324 | Pushing a closed group or a non-list block separated from the last item keeps all three invariants |
| ListGrouping.ExtendLastKeepsGrouping | components/post/notion-renderer.tsx:306-307 | Pushing a same-kind item onto the open group keeps all three invariants |
| ListGrouping.TailIsGrouping | components/post/notion-renderer.tsx:300-330 | Dropping the first item of a grouping leaves a grouping of the remaining blocks |
| ListGrouping.ShrinkFirstGroup | components/post/notion-renderer.tsx:306-307 | Removing the first block from a first group of two or more items leaves a grouping of the remaining blocks |
| ListGrouping.LeadingItemCase | components/post/notion-renderer.tsx:305-325 | When the first item holds a single block and the rest is the reference grouping of the rest, the whole is the reference grouping |
| ListGrouping.LongGroupCase | components/post/notion-renderer.tsx:306-307 | When the first group holds several blocks and its shortened form starts the reference grouping of the rest, the whole is the reference grouping |
| ListGrouping.GroupingShorter | components/post/notion-renderer.tsx:300-330 | A well-formed sequence that flattens to the input is no longer than the input |
| ListGrouping.GroupLength | components/post/notion-renderer.tsx:300-330 | The output of grouping has at most as many items as the input has blocks |
| ListGrouping.NonListBlocksStaySingle | components/post/notion-renderer.tsx:319-325 | Every non-list block of the input appears in the output as a single of itself |
| ListGrouping.FlattenAppend | components/post/notion-renderer.tsx:300-330 | Flattening distributes over concatenation of render items |
| ListGrouping.MixedRunTail | components/post/notion-renderer.tsx:312-325 | A paragraph, a bullet and two numbers give a single, a bulleted group and a numbered group of two |
| ListGrouping.MixedRunExample | components/post/notion-renderer.tsx:306-328 | Bullet, bullet, paragraph, bullet, number, number give exactly four items: a bulleted pair, the paragraph, a bulleted single and a numbered pair |
| NotionRenderer.Wrap | components/post/notion-renderer.tsx:20-31 | Wrapping puts the tag on top of the nesting path and keeps the visible text |
| NotionRenderer.WrapIf | components/post/notion-renderer.tsx:20-31 | A conditional wrapper adds its tag to the nesting path exactly when its flag is set and never changes the text |
| NotionRenderer.StyledSpan | components/post/notion-renderer.tsx:18-31 | The span sits innermost, inside strong, em, s and u, each present only when its flag is set; the text is the fragment's plain text |
| NotionRenderer.RenderFragment | components/post/notion-renderer.tsx:16-54 | A fragment is an element showing exactly its plain text. Its outermost tag is `a` exactly when the fragment has a non-empty `href`, and then it carries that `href` |
| NotionRenderer.FragmentTags | components/post/notion-renderer.tsx:18-52 | The nesting, outermost first, is: the anchor when linked, then `code` alone when the code flag is set, otherwise u, s, em, strong (each when set) around the span |
| NotionRenderer.RenderRichText | components/post/notion-renderer.tsx:12-58 | One fragment per rich-text item, in order; together they show the run's plain text |
| NotionRenderer.BoldItalicLinkExample | components/post/notion-renderer.tsx:18-52 | Bold, italic and linked text nests as a, em, strong, span |
| NotionRenderer.CodeDiscardsStyles | components/post/notion-renderer.tsx:32-52 | With the code flag the nesting is `code`, or `a` then `code` when linked, whatever the other style flags |
| NotionRenderer.Caption | components/post/notion-renderer.tsx:187-191 | An empty caption emits no element at all; a non-empty one emits exactly one element with the given tag; either way the caption shows exactly its plain text |
| NotionRenderer.RenderToDo | components/post/notion-renderer.tsx:139-154 | A to-do is a `div` that shows its text and contains a read-only checkbox carrying the checked state; its first `span` holds the text and carries the struck-through `class` exactly as the checked state sets it |
| NotionRenderer.RenderCode | components/post/notion-renderer.tsx:174-194 | A code block is a `div` that shows the language label, then the code's text, then the caption's text; its first `span` holds the label, and its first `pre` holds exactly one `code` element around the code's rich text. It has three children when the caption is non-empty, the third a `p` around the caption's rich text, and two otherwise |
| NotionRenderer.RenderImage | components/post/notion-renderer.tsx:196-221 | An image is a `figure` that shows only its caption's text; its `img` carries the variant's URL as `src` and the caption-or-placeholder as `alt`; a non-empty caption sits in a `figcaption` around its rich text, and an empty caption leaves no `figcaption` |
| NotionRenderer.CaptionFound | components/post/notion-renderer.tsx:214-218 | A caption's element is found by its own tag, holding the caption's rich text; an empty caption has no such element |
| NotionRenderer.ImageRendered | components/post/notion-renderer.tsx:196-221 | An image block is drawn from its source and caption, and its visible text is the caption's text |
| NotionRenderer.RenderCallout | components/post/notion-renderer.tsx:232-243 | A callout is a `div` that shows the emoji and then the text; its first `span` holds the emoji |
| NotionRenderer.RenderBookmark | components/post/notion-renderer.tsx:248-265 | A bookmark is an `a` element whose `href` is the URL; it shows the URL and then the caption's text. Its first child is a `span` holding the URL; a second child, a `p` around the caption's rich text, is present exactly when the caption is non-empty |
| NotionRenderer.RenderBlock | components/post/notion-renderer.tsx:61-297 | A block renders to nothing exactly when its kind is unknown. A paragraph renders the spacer `div` exactly when its rich text is empty. The outer tag of every kind is stated by `BlockElement`; the nested `ul` of a bulleted item, the nested `ol` of a numbered item, the absence of a nested list without children, the toggle's leading `summary` and the table's `div` > `table` > `tbody` of ungrouped rows by `BulletedItemShape`, `NumberedItemShape`, `ChildlessItemShape`, `ToggleShape` and `TableShape` |
| NotionRenderer.BlockElement | components/post/notion-renderer.tsx:67-296 | Every known kind renders to an element whose tag is the one listed in `KindTag`: the spacer `div` or `p` for a paragraph, `h1`, `h2`, `h3`, `li` for both list kinds, `div` for a to-do, `details`, `div` for code, `figure`, `blockquote`, `div` for a callout, `hr`, `a`, `div` for a table, `tr`. An unknown kind renders nothing |
| NotionRenderer.PlainElement | components/post/notion-renderer.tsx:68-296 | The same outer-tag table for the kinds drawn inline in the dispatch |
| NotionRenderer.InlineElement | components/post/notion-renderer.tsx:68-105 | Paragraphs, headings and quotes render to their listed tag |
| NotionRenderer.ParagraphElement | components/post/notion-renderer.tsx:68-78 | A paragraph is the spacer `div` when its rich text is empty and a `p` otherwise |
| NotionRenderer.HeadingElement | components/post/notion-renderer.tsx:80-105 | A heading or quote is exactly one `h1`/`h2`/`h3`/`blockquote` element around its rich text |
| NotionRenderer.ContainerElement | components/post/notion-renderer.tsx:156-296 | A toggle is `details`, a table `div`, a row `tr`, a divider `hr`; an unknown kind renders nothing |
| NotionRenderer.WidgetElement | components/post/notion-renderer.tsx:139-265 | To-dos, code, images, callouts and bookmarks render to their listed tag |
| NotionRenderer.ToDoElement | components/post/notion-renderer.tsx:142 | A to-do block is a `div` |
| NotionRenderer.CodeElement | components/post/notion-renderer.tsx:178 | A code block is a `div` |
| NotionRenderer.ImageElement | components/post/notion-renderer.tsx:204 | An image block is a `figure` |
| NotionRenderer.CalloutElement | components/post/notion-renderer.tsx:236 | A callout block is a `div` |
| NotionRenderer.BookmarkElement | components/post/notion-renderer.tsx:251 | A bookmark block is an `a` |
| NotionRenderer.RenderAll | components/post/notion-renderer.tsx:114-116 | Children are rendered one block at a time, in order, without grouping |
| NotionRenderer.RenderCells | components/post/notion-renderer.tsx:285-289 | A table row has one `td` per cell, in order, each holding that cell's rich text |
| NotionRenderer.RenderItem | components/post/notion-renderer.tsx:338-357 | A bulleted group becomes a `ul` and a numbered group an `ol`, holding one rendering per item in order; a single block renders as itself |
| NotionRenderer.RenderItems | components/post/notion-renderer.tsx:337-358 | One element per render item, in order |
| NotionRenderer.Render | components/post/notion-renderer.tsx:332-361 | The page is a `div` with no more children than there are top-level blocks, and its children are the renderings of any sequence of render items that flattens back to the blocks, is well formed and is maximal: one `ul`/`ol` per maximal run of same-kind list items |
| NotionRenderer.RenderFollowsGrouping | components/post/notion-renderer.tsx:332-361 | Given a grouping of the blocks (flattens back, well formed, maximal), the page's children are exactly that grouping's renderings, one per render item |
| NotionRenderer.MixedRunRendered | components/post/notion-renderer.tsx:300-361 | Bullet, bullet, paragraph, bullet, number, number render as a `div` holding a `ul` of two items, the paragraph, a `ul` of one item and an `ol` of two items |
| NotionRenderer.RenderText | components/post/notion-renderer.tsx:332-361 | Grouping neither drops, duplicates nor reorders content: the page shows exactly the blocks' visible text in order, the same as rendering each top-level block alone |
| NotionRenderer.RenderBlockText | components/post/notion-renderer.tsx:61-297 | Every block shows exactly its visible text (its own text, labels and fallbacks, then its rendered children's text) |
| NotionRenderer.RenderAllText | components/post/notion-renderer.tsx:114-116 | A list of rendered children shows the concatenation of their visible texts |
| NotionRenderer.RenderItemsText | components/post/notion-renderer.tsx:337-358 | The rendered render items show the visible text of their flattened blocks |
| NotionRenderer.LeafText | components/post/notion-renderer.tsx:68-296 | Kinds that ignore their children show exactly their own visible text |
| NotionRenderer.InlineText | components/post/notion-renderer.tsx:73-77 | An element around a rich-text run shows the run's plain text |
| NotionRenderer.ListItemText | components/post/notion-renderer.tsx:107-137 | A list item shows its text, then its nested list's text when it has children |
| NotionRenderer.ToggleText | components/post/notion-renderer.tsx:156-172 | A toggle shows its summary text, then its children's text when it has children |
| NotionRenderer.TableText | components/post/notion-renderer.tsx:267-279 | A table shows its rows' text, and nothing when it has no children |
| NotionRenderer.RowText | components/post/notion-renderer.tsx:281-292 | A table row shows its cells' text, in order |
| NotionRenderer.CellsTextRendered | components/post/notion-renderer.tsx:285-289 | The rendered cells show the concatenation of the cells' plain texts |
| NotionRenderer.NestedText | components/post/notion-renderer.tsx:112-118 | A nested container adds exactly its children's text, and nothing when the children are absent |
| NotionRenderer.WidgetText | components/post/notion-renderer.tsx:139-265 | To-dos, code, images, callouts and bookmarks show exactly their visible text |
| NotionRenderer.ToDoText | components/post/notion-renderer.tsx:139-154 | A to-do block shows its text |
| NotionRenderer.CodeText | components/post/notion-renderer.tsx:174-194 | A code block shows its label, code and caption text |
| NotionRenderer.ImageText | components/post/notion-renderer.tsx:196-221 | An image block shows its caption text |
| NotionRenderer.CalloutText | components/post/notion-renderer.tsx:232-243 | A callout block shows its emoji, then its text |
| NotionRenderer.BookmarkText | components/post/notion-renderer.tsx:248-265 | A bookmark block shows its URL, then its caption text |
| NotionRenderer.BookmarkRendered | components/post/notion-renderer.tsx:248-265 | A bookmark block is drawn from its URL and caption, and its visible text is the URL followed by the caption's text |
| NotionRenderer.ChildrenTextRendered | components/post/notion-renderer.tsx:114-116 | Attached children render to their visible text |
| NotionRenderer.ImageAttributes | components/post/notion-renderer.tsx:198-201 | The image's `src` is the URL of the file variant; its `alt` is `이미지` for an empty caption and the caption's joined plain text otherwise |
| NotionRenderer.CodeLanguageShown | components/post/notion-renderer.tsx:176 | The code label is the language, or `plaintext` when the language is empty |
| NotionRenderer.CalloutIconShown | components/post/notion-renderer.tsx:234 | The callout shows the icon's emoji, or `💡` when the icon is absent or not an emoji |
| NotionRenderer.ChildrenIgnored | components/post/notion-renderer.tsx:68-296 | Any kind except list items, toggles and tables renders the same whatever its children |
| NotionRenderer.NestedItemsNotRegrouped | components/post/notion-renderer.tsx:112-118 | A numbered child of a bulleted item is a bare `li` inside the parent's `ul`, not wrapped in an `ol` |
| NotionRenderer.BulletedItemShape | components/post/notion-renderer.tsx:107-121 | A bulleted item with children is an `li` holding its text and then a `ul` of its rendered children |
| NotionRenderer.NumberedItemShape | components/post/notion-renderer.tsx:123-137 | A numbered item with children is an `li` holding its text and then an `ol` of its rendered children |
| NotionRenderer.ToggleShape | components/post/notion-renderer.tsx:156-172 | A toggle is a `details` whose first child is the `summary` around its rich text; with children attached it has exactly one more child, a `div` of the rendered children, and otherwise none |
| NotionRenderer.ChildlessItemShape | components/post/notion-renderer.tsx:107-137 | A list item of either kind without children is just the `li` around its rich text, with no nested `ul` or `ol` |
| NotionRenderer.TableShape | components/post/notion-renderer.tsx:267-279 | A table is a `div` around a `table` around a `tbody` whose children are its rows rendered one by one in order, never grouped; without children the `tbody` is empty |
| NotionRenderer.ListItemShape | components/post/notion-renderer.tsx:110 | Both kinds of list item render as `li` |
| NotionRenderer.TopLevelItemWrapped | components/post/notion-renderer.tsx:333-355 | At the top level the same numbered block is wrapped in an `ol` of its own |
| NotionRenderer.HeadingSpacerParagraphExample | components/post/notion-renderer.tsx:68-87 | A heading, an empty paragraph and a paragraph render as `h1`, the spacer `div`, `p`, each text in a plain `span` |
| NotionRenderer.AllVisibleTextAppend | components/post/notion-renderer.tsx:114-116 | Visible text distributes over concatenation of block lists |
| RichText.PlainTextAppend | types/post.ts:110-112 | Joining fragment texts distributes over concatenation of runs |
| RichText.PlainTextLength | types/post.ts:110-112 | The joined text's length is the sum of the fragments' lengths |
| RichText.PlainTextFragment | types/post.ts:110-112 | Every fragment's text occurs in the joined text, between the joined texts of the fragments before it and after it |
| PostModel.RichTextToPlainText | types/post.ts:110-112 | The result's length is the sum of the fragment lengths, and for every split of the run it is the join of the two halves |
| PostModel.FindFirst | types/post.ts:31-35 | The search returns the first qualifying position, or reports that none qualifies |
| PostModel.FindFirstIgnoresLater | types/post.ts:31-35 | Once a match is found, entries after it are never consulted |
| PostModel.FindFirstSkipsNonMatching | types/post.ts:31-35 | Entries that do not qualify only shift the match's position |
| PostModel.Slug | types/post.ts:39 | The slug has no `-`; its length is the id's length minus its dashes; every other character occurs as often as in the id |
| PostModel.SlugCons | types/post.ts:39 | A leading dash is dropped from the slug and any other leading character is kept in front |
| PostModel.SlugAppend | types/post.ts:39 | Dashes are removed piecewise, so the slug keeps the id's order |
| PostModel.SlugOfDashFree | types/post.ts:39 | An id without dashes is its own slug |
| PostModel.SlugIdempotent | types/post.ts:39 | Taking the slug of a slug changes nothing |
| PostModel.TitleOf | types/post.ts:30-36 | The joined text of the first `title` property with a non-empty title, whatever its name; `제목 없음` when there is none |
| PostModel.CategoryOf | types/post.ts:42-48 | The first `select` named `Category` or `카테고리` decides: its option's name, or none when its select is null; none when no property matches |
| PostModel.OptionNames | types/post.ts:54 | One name per option, in order |
| PostModel.TagsOf | types/post.ts:51-57 | The option names, in order, of the first `multi_select` named `Tags` or `태그`; empty when none matches |
| PostModel.PublishedAtOf | types/post.ts:60-66 | The start of the first `date` property whose start is present and non-empty, whatever its name; none otherwise |
| PostModel.StatusOf | types/post.ts:69-75 | The first `select` named `Status` or `상태` decides: its option's name, or `Draft` when its select is null; `Draft` when none matches |
| PostModel.DescriptionOf | types/post.ts:88-94 | The joined text of the first `rich_text` property with non-empty text, whatever its name; empty when none |
| PostModel.CoverImageOf | types/post.ts:78-85 | The cover's external or file URL by variant; none exactly when there is no cover |
| PostModel.ParsePost | types/post.ts:26-107 | The id is kept. The slug is the id with its dashes removed, so it has no dash and keeps every other character in order. Each field takes the first qualifying property, as above, or its literal default when none qualifies. The cover URL is present exactly when the page has a cover |
| PostModel.KoreanCategoryExample | types/post.ts:44 | A `select` named `카테고리` is found when no property is named `Category` |
| PostModel.EmptyCategoryStopsSearch | types/post.ts:44-46 | A matched `Category` whose select is null yields none, and a later `카테고리` is not consulted |
| PostModel.DateWithoutStartSkipped | types/post.ts:62 | A `date` property with no start is skipped in favour of later ones |

## Left out

- CSS `className` strings, React `key` props, the anchors' `target`/`rel`, the `next/image` props other than `src` and `alt`, and `cn`: they carry styling only. A to-do's struck-through state is kept as a single `class` attribute.
- `lib/notion.ts`: network calls to the Notion API, environment configuration and error swallowing. These are I/O against a library that is not shown.
- Fetching and assembling the block tree (pagination, recursive child expansion): the post page gets its blocks from `getPostBySlug` in `lib/notion.ts` (imported at `app/(marketing)/posts/[slug]/page.tsx:5`). That is network code outside the two modelled files, so blocks arrive here with their children already attached.
- `components/post/post-card.tsx` and the page components: presentational UI with no logic beyond display.
- Unicode and regular-expression details: strings are sequences of characters, and `replace(/-/g, "")` is modelled as removing every `'-'`.
- The Notion response types' other fields and the `PostDetail` record's `blocks` field: nothing in the core reads them.

=== FILE: blocks.dfy ===
/**
 * Content blocks as the renderer receives them: a kind-specific payload and,
 * once the tree has been assembled, the block's children.
 */
module Blocks {
  import opened Wrappers
  import opened RichText

  /** A file object: hosted elsewhere (`external`) or by the content API (`file`). */
  datatype FileSource = External(url: string) | File(url: string)

  /** A callout icon; only the emoji variant carries something the renderer shows. */
  datatype Icon = Emoji(emoji: string) | OtherIcon

  /** The closed set of kinds the renderer knows, plus every other kind. */
  datatype Content =
    | Paragraph(richText: Run)
    | Heading1(richText: Run)
    | Heading2(richText: Run)
    | Heading3(richText: Run)
    | BulletedListItem(richText: Run)
    | NumberedListItem(richText: Run)
    | ToDo(richText: Run, checked: bool)
    | Toggle(richText: Run)
    | Code(richText: Run, language: string, caption: Run)
    | Image(source: FileSource, caption: Run)
    | Quote(richText: Run)
    | Callout(richText: Run, icon: Option<Icon>)
    | Divider
    | Bookmark(url: string, caption: Run)
    | Table
    | TableRow(cells: seq<Run>)
    | Unsupported(kind: string)

  /**
   * `NoChildren` is the absent `children` property; `Children(items)` is an
   * attached array, possibly empty (an empty array is still present).
   */
  datatype ChildList = NoChildren | Children(items: seq<Block>)

  datatype Block = Block(id: string, content: Content, children: ChildList)

  /** The two kinds of list container the renderer groups items into. */
  datatype ListKind = Bulleted | Numbered

  /** The list kind a block belongs to, `None` for every non-list block. */
  function ListKindOf(b: Block): Option<ListKind>
  {
    match b.content
    case BulletedListItem(_) => Some(Bulleted)
    case NumberedListItem(_) => Some(Numbered)
    case _ => None
  }
}

=== FILE: list_grouping.dfy ===
/**
 * `groupListItems`: one left-to-right pass that folds each run of
 * consecutive bulleted (or numbered) list items into one list group and
 * passes every other block through on its own.
 */
module ListGrouping {
  import opened Wrappers
  import opened Blocks

  /** A render item: a block on its own, or a list group of one kind. */
  datatype Grouped = Single(block: Block) | ListGroup(kind: ListKind, items: seq<Block>)

  /** The blocks a render item stands for. */
  function Items(g: Grouped): seq<Block>
  {
    match g
    case Single(b) => [b]
    case ListGroup(_, items) => items
  }

  /** Expanding every render item back into its blocks. */
  function Flatten(gs: seq<Grouped>): seq<Block>
  {
    if |gs| == 0 then [] else Items(gs[0]) + Flatten(gs[1..])
  }

  lemma {:induction false} FlattenAppend(a: seq<Grouped>, b: seq<Grouped>)
    ensures Flatten(a + b) == Flatten(a) + Flatten(b)
  {
    if |a| == 0 {
      assert a + b == b;
    } else {
      assert (a + b)[1..] == a[1..] + b;
      FlattenAppend(a[1..], b);
    }
  }

  /** A single is never a list item; a group is non-empty and homogeneous. */
  predicate WellFormedItem(g: Grouped)
  {
    match g
    case Single(b) => ListKindOf(b).None?
    case ListGroup(k, items) =>
      |items| > 0 && forall i :: 0 <= i < |items| ==> ListKindOf(items[i]) == Some(k)
  }

  predicate WellFormed(gs: seq<Grouped>)
  {
    forall i :: 0 <= i < |gs| ==> WellFormedItem(gs[i])
  }

  /** Two neighbours are not both groups of the same kind. */
  predicate Separated(a: Grouped, b: Grouped)
  {
    !(a.ListGroup? && b.ListGroup? && a.kind == b.kind)
  }

  /** Runs are maximal: no two adjacent groups could have been merged. */
  predicate Maximal(gs: seq<Grouped>)
  {
    forall i :: 0 < i < |gs| ==> Separated(gs[i - 1], gs[i])
  }

  /** `gs` is a grouping of `bs`: it flattens back to `bs`, is well formed and maximal. */
  predicate IsGrouping(bs: seq<Block>, gs: seq<Grouped>)
  {
    Flatten(gs) == bs && WellFormed(gs) && Maximal(gs)
  }

  /**
   * Reference definition, built from the right: a list item joins the group
   * that follows it when that group has its kind, and opens a new one otherwise.
   */
  function Group(bs: seq<Block>): seq<Grouped>
    decreases |bs|
  {
    if |bs| == 0 then []
    else
      var rest := Group(bs[1..]);
      match ListKindOf(bs[0])
      case None => [Single(bs[0])] + rest
      case Some(k) =>
        if |rest| > 0 && rest[0].ListGroup? && rest[0].kind == k
        then [ListGroup(k, [bs[0]] + rest[0].items)] + rest[1..]
        else [ListGroup(k, [bs[0]])] + rest
  }

  /** The reference definition meets all three invariants. */
  lemma {:induction false} GroupIsGrouping(bs: seq<Block>)
    ensures IsGrouping(bs, Group(bs))
    decreases |bs|
  {
    if |bs| > 0 {
      var b, rest := bs[0], Group(bs[1..]);
      GroupIsGrouping(bs[1..]);
      GroupCons(b, bs[1..]);
      assert bs == [b] + bs[1..];
      match ListKindOf(b)
      case None =>
        PrependKeepsGrouping(bs[1..], rest, Single(b));
      case Some(k) =>
        if |rest| > 0 && rest[0].ListGroup? && rest[0].kind == k {
          JoinFirstKeepsGrouping(b, bs[1..], rest);
        } else {
          PrependKeepsGrouping(bs[1..], rest, ListGroup(k, [b]));
        }
    }
  }

  lemma PrependKeepsGrouping(bs: seq<Block>, gs: seq<Grouped>, g: Grouped)
    requires IsGrouping(bs, gs) && WellFormedItem(g)
    requires |gs| == 0 || Separated(g, gs[0])
    ensures IsGrouping(Items(g) + bs, [g] + gs)
  {
    var gs' := [g] + gs;
    assert gs'[1..] == gs;
    forall i | 0 <= i < |gs'| ensures WellFormedItem(gs'[i]) {
      if i > 0 { assert gs'[i] == gs[i - 1]; }
    }
    forall i | 0 < i < |gs'| ensures Separated(gs'[i - 1], gs'[i]) {
      if i > 1 { assert gs'[i] == gs[i - 1] && gs'[i - 1] == gs[i - 2]; }
    }
  }

  lemma JoinFirstKeepsGrouping(b: Block, bs: seq<Block>, gs: seq<Grouped>)
    requires IsGrouping(bs, gs) && |gs| > 0 && gs[0].ListGroup?
    requires ListKindOf(b) == Some(gs[0].kind)
    ensures IsGrouping([b] + bs, [ListGroup(gs[0].kind, [b] + gs[0].items)] + gs[1..])
  {
    var k, items := gs[0].kind, gs[0].items;
    var g := ListGroup(k, [b] + items);
    var gs' := [g] + gs[1..];
    assert gs'[1..] == gs[1..];
    assert gs == [gs[0]] + gs[1..];
    assert bs == items + Flatten(gs[1..]);
    assert WellFormedItem(gs[0]);
    assert WellFormedItem(g) by {
      forall i | 0 <= i < |[b] + items| ensures ListKindOf(([b] + items)[i]) == Some(k) {
        if i > 0 { assert ([b] + items)[i] == items[i - 1]; }
      }
    }
    forall i | 0 <= i < |gs'| ensures WellFormedItem(gs'[i]) {
      if i > 0 { assert gs'[i] == gs[i]; }
    }
    forall i | 0 < i < |gs'| ensures Separated(gs'[i - 1], gs'[i]) {
      assert gs'[i] == gs[i];
      if i > 1 { assert gs'[i - 1] == gs[i - 1]; }
      else { assert Separated(gs[0], gs[1]); }
    }
  }

  /** Dropping the first render item of a grouping leaves a grouping of the rest. */
  lemma TailIsGrouping(gs: seq<Grouped>)
    requires |gs| > 0 && WellFormed(gs) && Maximal(gs)
    ensures IsGrouping(Flatten(gs[1..]), gs[1..])
  {
    var tail := gs[1..];
    forall i | 0 <= i < |tail| ensures WellFormedItem(tail[i]) {
      assert tail[i] == gs[i + 1];
    }
    forall i | 0 < i < |tail| ensures Separated(tail[i - 1], tail[i]) {
      assert tail[i] == gs[i + 1] && tail[i - 1] == gs[i];
    }
  }

  /** Taking the first block out of a leading group of two or more still leaves a grouping. */
  lemma ShrinkFirstGroup(bs: seq<Block>, gs: seq<Grouped>, k: ListKind, items: seq<Block>)
    requires |gs| > 0 && gs[0] == ListGroup(k, items) && |items| > 1
    requires IsGrouping(bs, gs)
    ensures IsGrouping(bs[1..], [ListGroup(k, items[1..])] + gs[1..])
  {
    assert bs == items + Flatten(gs[1..]);
    assert bs[1..] == items[1..] + Flatten(gs[1..]);
    var tail := gs[1..];
    var g' := [ListGroup(k, items[1..])] + tail;
    assert g'[1..] == tail;
    assert WellFormedItem(gs[0]);
    assert WellFormedItem(g'[0]) by {
      forall i | 0 <= i < |items[1..]| ensures ListKindOf(items[1..][i]) == Some(k) {
        assert items[1..][i] == items[i + 1];
      }
    }
    forall i | 0 <= i < |g'| ensures WellFormedItem(g'[i]) {
      if i > 0 { assert g'[i] == gs[i]; }
    }
    forall i | 0 < i < |g'| ensures Separated(g'[i - 1], g'[i]) {
      assert g'[i] == gs[i];
      if i > 1 { assert g'[i - 1] == gs[i - 1]; }
      else { assert Separated(gs[0], gs[1]); }
    }
  }

  /** One unfolding of `Group` for a non-empty input, case by case. */
  lemma GroupCons(b: Block, rest: seq<Block>)
    ensures ListKindOf(b).None? ==> Group([b] + rest) == [Single(b)] + Group(rest)
    ensures ListKindOf(b).Some? ==>
      var k := ListKindOf(b).value;
      var tail := Group(rest);
      if |tail| > 0 && tail[0].ListGroup? && tail[0].kind == k
      then Group([b] + rest) == [ListGroup(k, [b] + tail[0].items)] + tail[1..]
      else Group([b] + rest) == [ListGroup(k, [b])] + tail
  {
    assert ([b] + rest)[1..] == rest;
  }

  /** A grouping is unique: any sequence meeting the invariants is `Group(bs)`. */
  lemma {:induction false} GroupingUnique(bs: seq<Block>, gs: seq<Grouped>)
    requires IsGrouping(bs, gs)
    ensures gs == Group(bs)
    decreases |bs|
  {
    if |gs| == 0 {
      assert bs == [];
    } else {
      assert WellFormedItem(gs[0]);
      assert bs == Items(gs[0]) + Flatten(gs[1..]);
      if gs[0].Single? || |gs[0].items| == 1 {
        TailIsGrouping(gs);
        GroupingUnique(bs[1..], gs[1..]);
        LeadingItemCase(bs, gs);
      } else {
        var k, items := gs[0].kind, gs[0].items;
        ShrinkFirstGroup(bs, gs, k, items);
        GroupingUnique(bs[1..], [ListGroup(k, items[1..])] + gs[1..]);
        LongGroupCase(bs, gs, k, items);
      }
    }
  }

  /** The step of `GroupingUnique` when the first render item stands for one block. */
  lemma LeadingItemCase(bs: seq<Block>, gs: seq<Grouped>)
    requires IsGrouping(bs, gs) && |gs| > 0 && |Items(gs[0])| == 1
    requires gs[1..] == Group(bs[1..])
    ensures gs == Group(bs)
  {
    assert WellFormedItem(gs[0]);
    assert bs == Items(gs[0]) + Flatten(gs[1..]);
    GroupCons(bs[0], bs[1..]);
    assert bs == [bs[0]] + bs[1..];
    assert gs == [gs[0]] + gs[1..];
    if |gs| > 1 {
      assert Separated(gs[0], gs[1]);
    }
    if gs[0].ListGroup? {
      assert gs[0].items == [bs[0]];
    }
  }

  /** The step of `GroupingUnique` when the first render item is a group of two or more. */
  lemma LongGroupCase(bs: seq<Block>, gs: seq<Grouped>, k: ListKind, items: seq<Block>)
    requires IsGrouping(bs, gs) && |gs| > 0 && gs[0] == ListGroup(k, items) && |items| > 1
    requires [ListGroup(k, items[1..])] + gs[1..] == Group(bs[1..])
    ensures gs == Group(bs)
  {
    assert WellFormedItem(gs[0]);
    assert bs == items + Flatten(gs[1..]);
    assert bs[0] == items[0];
    GroupCons(bs[0], bs[1..]);
    assert bs == [bs[0]] + bs[1..];
    assert [bs[0]] + items[1..] == items;
    assert ([ListGroup(k, items[1..])] + gs[1..])[1..] == gs[1..];
    assert gs == [gs[0]] + gs[1..];
  }

  /** Grouping never lengthens the sequence: every item stands for at least one block. */
  lemma {:induction false} GroupingShorter(bs: seq<Block>, gs: seq<Grouped>)
    requires Flatten(gs) == bs && WellFormed(gs)
    ensures |gs| <= |bs|
    decreases |gs|
  {
    if |gs| > 0 {
      assert WellFormedItem(gs[0]);
      var tail := gs[1..];
      assert WellFormed(tail) by {
        forall i | 0 <= i < |tail| ensures WellFormedItem(tail[i]) {
          assert tail[i] == gs[i + 1];
        }
      }
      GroupingShorter(Flatten(tail), tail);
    }
  }

  lemma GroupLength(bs: seq<Block>)
    ensures |Group(bs)| <= |bs|
  {
    GroupIsGrouping(bs);
    GroupingShorter(bs, Group(bs));
  }

  /** Every non-list block comes out as a `Single` of itself. */
  lemma {:induction false} NonListBlocksStaySingle(bs: seq<Block>, j: nat)
    requires j < |bs| && ListKindOf(bs[j]).None?
    ensures Single(bs[j]) in Group(bs)
    decreases |bs|
  {
    var rest := Group(bs[1..]);
    if j == 0 {
      assert Group(bs)[0] == Single(bs[0]);
    } else {
      NonListBlocksStaySingle(bs[1..], j - 1);
      var i :| 0 <= i < |rest| && rest[i] == Single(bs[j]);
      match ListKindOf(bs[0])
      case None =>
        assert Group(bs)[i + 1] == rest[i];
      case Some(k) =>
        if |rest| > 0 && rest[0].ListGroup? && rest[0].kind == k {
          assert i > 0;
          assert Group(bs)[i] == rest[i];
        } else {
          assert Group(bs)[i + 1] == rest[i];
        }
    }
  }

  /** The tail of the example below: paragraph, bullet, number, number. */
  lemma MixedRunTail(p: Block, b3: Block, n1: Block, n2: Block)
    requires ListKindOf(b3) == Some(Bulleted)
    requires ListKindOf(p).None?
    requires ListKindOf(n1) == ListKindOf(n2) == Some(Numbered)
    ensures Group([p, b3, n1, n2]) == [Single(p), ListGroup(Bulleted, [b3]), ListGroup(Numbered, [n1, n2])]
  {
    GroupCons(n2, []);
    assert [n2] + [] == [n2];
    assert Group([n2]) == [ListGroup(Numbered, [n2])];
    GroupCons(n1, [n2]);
    assert [n1] + [n2] == [n1, n2];
    assert Group([n1, n2]) == [ListGroup(Numbered, [n1, n2])];
    GroupCons(b3, [n1, n2]);
    assert [b3] + [n1, n2] == [b3, n1, n2];
    assert Group([b3, n1, n2]) == [ListGroup(Bulleted, [b3]), ListGroup(Numbered, [n1, n2])];
    GroupCons(p, [b3, n1, n2]);
    assert [p] + [b3, n1, n2] == [p, b3, n1, n2];
  }

  /**
   * Bullet, bullet, paragraph, bullet, number, number gives four render
   * items: a switch to a non-list block or to the other list kind closes a group.
   */
  lemma {:induction false} MixedRunExample(b1: Block, b2: Block, p: Block, b3: Block, n1: Block, n2: Block)
    requires ListKindOf(b1) == ListKindOf(b2) == ListKindOf(b3) == Some(Bulleted)
    requires ListKindOf(p).None?
    requires ListKindOf(n1) == ListKindOf(n2) == Some(Numbered)
    ensures Group([b1, b2, p, b3, n1, n2])
         == [ListGroup(Bulleted, [b1, b2]), Single(p), ListGroup(Bulleted, [b3]), ListGroup(Numbered, [n1, n2])]
  {
    var tail := [Single(p), ListGroup(Bulleted, [b3]), ListGroup(Numbered, [n1, n2])];
    MixedRunTail(p, b3, n1, n2);
    GroupCons(b2, [p, b3, n1, n2]);
    assert [b2] + [p, b3, n1, n2] == [b2, p, b3, n1, n2];
    var rest := [ListGroup(Bulleted, [b2])] + tail;
    assert Group([b2, p, b3, n1, n2]) == rest;
    GroupCons(b1, [b2, p, b3, n1, n2]);
    assert [b1] + [b2, p, b3, n1, n2] == [b1, b2, p, b3, n1, n2];
    assert rest[1..] == tail;
    assert [b1] + [b2] == [b1, b2];
  }

  /** Rendering items that are still being collected: the closed ones, then the open list. */
  function Pending(grouped: seq<Grouped>, current: Option<Grouped>): seq<Grouped>
  {
    if current.Some? then grouped + [current.value] else grouped
  }

  lemma AppendKeepsGrouping(bs: seq<Block>, gs: seq<Grouped>, g: Grouped)
    requires IsGrouping(bs, gs) && WellFormedItem(g)
    requires |gs| == 0 || Separated(gs[|gs| - 1], g)
    ensures IsGrouping(bs + Items(g), gs + [g])
  {
    FlattenAppend(gs, [g]);
    assert Flatten([g]) == Items(g) by {
      assert [g][1..] == [];
    }
    var gs' := gs + [g];
    forall i | 0 < i < |gs'| ensures Separated(gs'[i - 1], gs'[i]) {
      if i < |gs| {
        assert gs'[i] == gs[i] && gs'[i - 1] == gs[i - 1];
      }
    }
  }

  lemma ExtendLastKeepsGrouping(bs: seq<Block>, gs: seq<Grouped>, k: ListKind, items: seq<Block>, b: Block)
    requires IsGrouping(bs, gs + [ListGroup(k, items)])
    requires ListKindOf(b) == Some(k)
    ensures IsGrouping(bs + [b], gs + [ListGroup(k, items + [b])])
  {
    var before := gs + [ListGroup(k, items)];
    var after := gs + [ListGroup(k, items + [b])];
    FlattenAppend(gs, [ListGroup(k, items)]);
    FlattenAppend(gs, [ListGroup(k, items + [b])]);
    assert [ListGroup(k, items)][1..] == [];
    assert [ListGroup(k, items + [b])][1..] == [];
    assert WellFormedItem(before[|gs|]);
    forall i | 0 <= i < |after| ensures WellFormedItem(after[i]) {
      if i < |gs| {
        assert after[i] == before[i];
      } else {
        forall j | 0 <= j < |items + [b]| ensures ListKindOf((items + [b])[j]) == Some(k) {
          if j < |items| { assert (items + [b])[j] == items[j]; }
        }
      }
    }
    forall i | 0 < i < |after| ensures Separated(after[i - 1], after[i]) {
      assert Separated(before[i - 1], before[i]);
      if i < |gs| {
        assert after[i] == before[i] && after[i - 1] == before[i - 1];
      } else {
        assert after[i - 1] == before[i - 1];
      }
    }
  }

  /**
   * `groupListItems` as written: a closed-group accumulator and the list
   * currently being collected, flushed when a block of another kind arrives
   * and once more at the end.
   */
  method GroupListItems(blocks: seq<Block>) returns (grouped: seq<Grouped>)
    ensures IsGrouping(blocks, grouped)
    ensures grouped == Group(blocks)
  {
    grouped := [];
    var current: Option<Grouped> := None;
    for i := 0 to |blocks|
      invariant current.Some? ==> current.value.ListGroup?
      invariant IsGrouping(blocks[..i], Pending(grouped, current))
      invariant current.None? && |grouped| > 0 ==> grouped[|grouped| - 1].Single?
    {
      var block := blocks[i];
      assert blocks[..i + 1] == blocks[..i] + [block];
      if block.content.BulletedListItem? {
        if current.Some? && current.value.kind == Bulleted {
          ExtendLastKeepsGrouping(blocks[..i], grouped, Bulleted, current.value.items, block);
          current := Some(ListGroup(Bulleted, current.value.items + [block]));
        } else {
          if current.Some? {
            grouped := grouped + [current.value];
          }
          AppendKeepsGrouping(blocks[..i], grouped, ListGroup(Bulleted, [block]));
          current := Some(ListGroup(Bulleted, [block]));
        }
      } else if block.content.NumberedListItem? {
        if current.Some? && current.value.kind == Numbered {
          ExtendLastKeepsGrouping(blocks[..i], grouped, Numbered, current.value.items, block);
          current := Some(ListGroup(Numbered, current.value.items + [block]));
        } else {
          if current.Some? {
            grouped := grouped + [current.value];
          }
          AppendKeepsGrouping(blocks[..i], grouped, ListGroup(Numbered, [block]));
          current := Some(ListGroup(Numbered, [block]));
        }
      } else {
        if current.Some? {
          grouped := grouped + [current.value];
          current := None;
        }
        AppendKeepsGrouping(blocks[..i], grouped, Single(block));
        grouped := grouped + [Single(block)];
      }
    }
    if current.Some? {
      grouped := grouped + [current.value];
    }
    assert blocks[..|blocks|] == blocks;
    GroupingUnique(blocks, grouped);
  }
}

=== FILE: markup.dfy ===
/**
 * The rendered markup tree. Class names, React keys and styling are dropped;
 * an element keeps its tag, the attributes that carry meaning (`href`, `src`,
 * `alt`, `checked`, ...) and its children. `Empty` is a component that
 * rendered `null`.
 */
module MarkupTree {
  import opened Wrappers

  type Attr = (string, string)

  datatype Markup =
    | Elem(tag: string, attrs: seq<Attr>, children: seq<Markup>)
    | Text(text: string)
    | Empty

  /** The text a reader sees: every text node, in document order. */
  function TextOf(m: Markup): string
  {
    match m
    case Elem(_, _, cs) => TextOfAll(cs)
    case Text(s) => s
    case Empty => ""
  }

  function TextOfAll(ms: seq<Markup>): string
  {
    if |ms| == 0 then "" else TextOf(ms[0]) + TextOfAll(ms[1..])
  }

  lemma {:induction false} TextOfAllAppend(a: seq<Markup>, b: seq<Markup>)
    ensures TextOfAll(a + b) == TextOfAll(a) + TextOfAll(b)
  {
    if |a| == 0 {
      assert a + b == b;
    } else {
      assert (a + b)[1..] == a[1..] + b;
      TextOfAllAppend(a[1..], b);
    }
  }

  lemma TextOfCons(m: Markup, ms: seq<Markup>)
    ensures TextOfAll([m] + ms) == TextOf(m) + TextOfAll(ms)
  {
    assert ([m] + ms)[1..] == ms;
  }

  lemma FindTagCons(m: Markup, ms: seq<Markup>, tag: string)
    ensures FindTagAll([m] + ms, tag) == if FindTag(m, tag).Some? then FindTag(m, tag) else FindTagAll(ms, tag)
  {
    assert ([m] + ms)[1..] == ms;
  }

  lemma TextOfSingleton(m: Markup)
    ensures TextOfAll([m]) == TextOf(m)
  {
    assert [m][1..] == [];
    assert TextOfAll([]) == "";
  }

  /**
   * The tags met when walking down from `m` while each element has exactly
   * one child, outermost first: the wrapper nesting of an inline fragment.
   */
  function TagPath(m: Markup): seq<string>
  {
    match m
    case Elem(tag, _, cs) => if |cs| == 1 then [tag] + TagPath(cs[0]) else [tag]
    case _ => []
  }

  /** The value of the first attribute called `name`, if any. */
  function AttrValue(attrs: seq<Attr>, name: string): Option<string>
  {
    if |attrs| == 0 then None
    else if attrs[0].0 == name then Some(attrs[0].1)
    else AttrValue(attrs[1..], name)
  }

  /** The first element tagged `tag` in a depth-first, left-to-right walk. */
  function FindTag(m: Markup, tag: string): Option<Markup>
  {
    match m
    case Elem(t, _, cs) => if t == tag then Some(m) else FindTagAll(cs, tag)
    case _ => None
  }

  function FindTagAll(ms: seq<Markup>, tag: string): Option<Markup>
  {
    if |ms| == 0 then None
    else match FindTag(ms[0], tag)
      case Some(e) => Some(e)
      case None => FindTagAll(ms[1..], tag)
  }
}

=== FILE: notion_renderer.dfy ===
/**
 * The block-to-markup renderer: inline rich text, the per-kind block
 * dispatch, and the top-level entry point that groups list items into
 * `ul`/`ol` containers before rendering.
 */
module NotionRenderer {
  import opened Wrappers
  import opened RichText
  import opened MarkupTree
  import opened Blocks
  import opened ListGrouping

  // ---------------------------------------------------------------------------
  // Rich text
  // ---------------------------------------------------------------------------

  /** A link target counts only when it is present and non-empty. */
  predicate HasLink(t: RichTextItem)
  {
    t.href.Some? && t.href.value != ""
  }

  /** `[tag]` when the flag is set, nothing otherwise. */
  function TagIf(flag: bool, tag: string): seq<string>
  {
    if flag then [tag] else []
  }

  /** The style wrappers around the span, outermost first: underline, strikethrough, italic, bold. */
  function StyledTags(a: Annotations): seq<string>
  {
    TagIf(a.underline, "u") + (TagIf(a.strikethrough, "s") + (TagIf(a.italic, "em") + (TagIf(a.bold, "strong") + ["span"])))
  }

  /**
   * The wrappers a fragment is rendered in, outermost first: the link, then
   * either `code` alone or the styled span.
   */
  function ExpectedTags(t: RichTextItem): seq<string>
  {
    TagIf(HasLink(t), "a") + (if t.annotations.code then ["code"] else StyledTags(t.annotations))
  }

  /** An element with no meaningful attributes around exactly one child. */
  function Wrap(tag: string, m: Markup): (r: Markup)
    ensures TagPath(r) == [tag] + TagPath(m)
    ensures TextOf(r) == TextOf(m)
  {
    TextOfSingleton(m);
    Elem(tag, [], [m])
  }

  /** `Wrap` applied only when the flag is set. */
  function WrapIf(flag: bool, tag: string, m: Markup): (r: Markup)
    ensures TagPath(r) == TagIf(flag, tag) + TagPath(m)
    ensures TextOf(r) == TextOf(m)
    ensures m.Elem? ==> r.Elem? && r.tag == (if flag then tag else m.tag)
  {
    if flag then Wrap(tag, m) else assert [] + TagPath(m) == TagPath(m); m
  }

  /** The plain span inside the style wrappers whose flags are set. */
  function StyledSpan(t: RichTextItem): (r: Markup)
    ensures r.Elem? && r.tag != "a"
    ensures TagPath(r) == StyledTags(t.annotations)
    ensures TextOf(r) == t.plainText
  {
    var a := t.annotations;
    var span := Wrap("span", Text(t.plainText));
    var bold := WrapIf(a.bold, "strong", span);
    var italic := WrapIf(a.italic, "em", bold);
    var strike := WrapIf(a.strikethrough, "s", italic);
    var under := WrapIf(a.underline, "u", strike);
    assert TagPath(span) == ["span"];
    assert TagPath(bold) == TagIf(a.bold, "strong") + ["span"];
    assert TagPath(italic) == TagIf(a.italic, "em") + (TagIf(a.bold, "strong") + ["span"]);
    under
  }

  /** One fragment of `RichText`: span, then bold/italic/strike/underline, `code` replacing them, a link outside. */
  function RenderFragment(t: RichTextItem): (r: Markup)
    ensures r.Elem?
    ensures TextOf(r) == t.plainText
    ensures r.tag == "a" <==> HasLink(t)
    ensures HasLink(t) ==> AttrValue(r.attrs, "href") == t.href
  {
    var inner := if t.annotations.code then Wrap("code", Text(t.plainText)) else StyledSpan(t);
    if HasLink(t) then
      TextOfSingleton(inner);
      Elem("a", [("href", t.href.value)], [inner])
    else inner
  }

  /** A fragment's nesting, outermost first, is exactly the one its flags call for. */
  lemma FragmentTags(t: RichTextItem)
    ensures TagPath(RenderFragment(t)) == ExpectedTags(t)
  {
    var inner := if t.annotations.code then Wrap("code", Text(t.plainText)) else StyledSpan(t);
    assert TagPath(inner) == (if t.annotations.code then ["code"] else StyledTags(t.annotations));
    if HasLink(t) {
      assert RenderFragment(t) == Elem("a", [("href", t.href.value)], [inner]);
    } else {
      assert RenderFragment(t) == inner;
      assert ExpectedTags(t) == [] + TagPath(inner);
    }
  }

  /** `RichText`: one rendered fragment per item, in input order. */
  function RenderRichText(rt: Run): (r: seq<Markup>)
    ensures |r| == |rt|
    ensures forall i :: 0 <= i < |rt| ==> r[i] == RenderFragment(rt[i])
    ensures TextOfAll(r) == PlainText(rt)
  {
    if |rt| == 0 then []
    else
      var head, tail := RenderFragment(rt[0]), RenderRichText(rt[1..]);
      var r := [head] + tail;
      assert r[1..] == tail;
      TextOfCons(head, tail);
      r
  }

  // ---------------------------------------------------------------------------
  // Blocks
  // ---------------------------------------------------------------------------

  /** The empty paragraph's vertical spacer. */
  const Spacer := Elem("div", [], [])

  const DefaultLanguage := "plaintext"
  const ImagePlaceholder := "이미지"
  const CalloutPlaceholder := "💡"

  /** The code block's label: its language, or `plaintext` when the language is empty. */
  function LanguageLabel(language: string): string
  {
    if language == "" then DefaultLanguage else language
  }

  /** The image's address, taken from whichever file variant the image is. */
  function ImageUrl(source: FileSource): string
  {
    match source
    case External(url) => url
    case File(url) => url
  }

  /** The image's alt text: the caption's plain text, or the placeholder for an empty caption. */
  function ImageAlt(caption: Run): string
  {
    if |caption| > 0 then PlainText(caption) else ImagePlaceholder
  }

  /** The callout's emoji, or the light bulb when the icon is absent or not an emoji. */
  function CalloutEmoji(icon: Option<Icon>): string
  {
    if icon.Some? && icon.value.Emoji? then icon.value.emoji else CalloutPlaceholder
  }

  /** The caption element: one `tag` element around the caption's rich text, or nothing for an empty caption. */
  function Caption(tag: string, caption: Run): (r: seq<Markup>)
    ensures TextOfAll(r) == PlainText(caption)
    ensures |caption| == 0 <==> r == []
    ensures |caption| > 0 ==> |r| == 1 && r[0].Elem? && r[0].tag == tag
  {
    if |caption| > 0 then
      TextOfSingleton(Elem(tag, [], RenderRichText(caption)));
      [Elem(tag, [], RenderRichText(caption))]
    else []
  }

  /** A caption's element is found by its own tag; an empty caption has none. */
  lemma CaptionFound(tag: string, caption: Run)
    ensures |caption| > 0 ==> FindTagAll(Caption(tag, caption), tag) == Some(Elem(tag, [], RenderRichText(caption)))
    ensures |caption| == 0 ==> FindTagAll(Caption(tag, caption), tag).None?
  {
    if |caption| > 0 {
      FindTagCons(Elem(tag, [], RenderRichText(caption)), [], tag);
      assert [Elem(tag, [], RenderRichText(caption))] + [] == Caption(tag, caption);
    }
  }

  function CheckboxAttrs(checked: bool): seq<Attr>
  {
    [("type", "checkbox"), ("checked", if checked then "true" else "false"), ("readOnly", "true")]
  }

  function StrikeAttrs(checked: bool): seq<Attr>
  {
    if checked then [("class", "line-through")] else []
  }

  /** A to-do: a read-only checkbox with the checked state, the text struck through when checked. */
  function RenderToDo(rt: Run, checked: bool): (r: Markup)
    ensures r.Elem? && r.tag == "div"
    ensures TextOf(r) == PlainText(rt)
    ensures FindTag(r, "input") == Some(Elem("input", CheckboxAttrs(checked), []))
    ensures FindTag(r, "span") == Some(Elem("span", StrikeAttrs(checked), RenderRichText(rt)))
  {
    var input := Elem("input", CheckboxAttrs(checked), []);
    var span := Elem("span", StrikeAttrs(checked), RenderRichText(rt));
    TextOfCons(input, [span]);
    TextOfSingleton(span);
    FindTagCons(input, [span], "input");
    FindTagCons(input, [span], "span");
    FindTagCons(span, [], "span");
    assert [span] + [] == [span];
    Elem("div", [], [input, span])
  }

  /** A code block: the language label, the verbatim body, the caption when there is one. */
  function RenderCode(rt: Run, language: string, caption: Run): (r: Markup)
    ensures r.Elem? && r.tag == "div"
    ensures TextOf(r) == LanguageLabel(language) + (PlainText(rt) + PlainText(caption))
    ensures FindTag(r, "span") == Some(Elem("span", [], [Text(LanguageLabel(language))]))
    ensures FindTag(r, "pre") == Some(Elem("pre", [], [Elem("code", [], RenderRichText(rt))]))
    ensures |r.children| == (if |caption| > 0 then 3 else 2)
    ensures |caption| > 0 ==> r.children[2] == Elem("p", [], RenderRichText(caption))
  {
    var span := Elem("span", [], [Text(LanguageLabel(language))]);
    var header := Elem("div", [], [span]);
    var code := Elem("code", [], RenderRichText(rt));
    var body := Elem("pre", [], [code]);
    var rest := [body] + Caption("p", caption);
    TextOfCons(header, rest);
    TextOfCons(body, Caption("p", caption));
    TextOfSingleton(span);
    TextOfSingleton(Text(LanguageLabel(language)));
    TextOfSingleton(code);
    FindTagCons(span, [], "span");
    assert [span] + [] == [span];
    FindTagCons(header, rest, "span");
    var r := Elem("div", [], [header] + rest);
    assert TextOf(header) == LanguageLabel(language);
    assert TextOf(body) == PlainText(rt);
    assert TextOfAll(rest) == PlainText(rt) + PlainText(caption);
    assert TextOf(r) == TextOfAll([header] + rest);
    assert FindTag(header, "span") == Some(span);
    FindTagCons(Text(LanguageLabel(language)), [], "pre");
    FindTagCons(span, [], "pre");
    assert FindTag(header, "pre").None?;
    FindTagCons(body, Caption("p", caption), "pre");
    FindTagCons(header, rest, "pre");
    r
  }

  /** An image: the picture with its `src` and `alt`, the caption when there is one. */
  function RenderImage(source: FileSource, caption: Run): (r: Markup)
    ensures r.Elem? && r.tag == "figure"
    ensures TextOf(r) == PlainText(caption)
    ensures FindTag(r, "img") == Some(Elem("img", [("src", ImageUrl(source)), ("alt", ImageAlt(caption))], []))
    ensures |caption| > 0 ==> FindTag(r, "figcaption") == Some(Elem("figcaption", [], RenderRichText(caption)))
    ensures |caption| == 0 ==> FindTag(r, "figcaption").None?
  {
    var img := Elem("img", [("src", ImageUrl(source)), ("alt", ImageAlt(caption))], []);
    var frame := Elem("div", [], [img]);
    TextOfCons(frame, Caption("figcaption", caption));
    TextOfSingleton(img);
    assert TextOfAll([]) == "";
    FindTagCons(img, [], "img");
    assert [img] + [] == [img];
    FindTagCons(frame, Caption("figcaption", caption), "img");
    FindTagCons(img, [], "figcaption");
    FindTagCons(frame, Caption("figcaption", caption), "figcaption");
    CaptionFound("figcaption", caption);
    Elem("figure", [], [frame] + Caption("figcaption", caption))
  }

  /** A callout: the icon, then the text. */
  function RenderCallout(rt: Run, icon: Option<Icon>): (r: Markup)
    ensures r.Elem? && r.tag == "div"
    ensures TextOf(r) == CalloutEmoji(icon) + PlainText(rt)
    ensures FindTag(r, "span") == Some(Elem("span", [], [Text(CalloutEmoji(icon))]))
  {
    var emoji := Elem("span", [], [Text(CalloutEmoji(icon))]);
    var body := Elem("div", [], RenderRichText(rt));
    TextOfCons(emoji, [body]);
    TextOfSingleton(body);
    TextOfSingleton(Text(CalloutEmoji(icon)));
    FindTagCons(emoji, [body], "span");
    Elem("div", [], [emoji, body])
  }

  /** A link preview: an anchor to the URL showing the URL, the caption beneath when there is one. */
  function RenderBookmark(url: string, caption: Run): (r: Markup)
    ensures TextOf(r) == url + PlainText(caption)
    ensures r.Elem? && r.tag == "a" && AttrValue(r.attrs, "href") == Some(url)
    ensures |r.children| == (if |caption| > 0 then 2 else 1)
    ensures r.children[0] == Elem("span", [], [Text(url)])
    ensures |caption| > 0 ==> r.children[1] == Elem("p", [], RenderRichText(caption))
  {
    var shown := Elem("span", [], [Text(url)]);
    TextOfCons(shown, Caption("p", caption));
    TextOfSingleton(Text(url));
    Elem("a", [("href", url)], [shown] + Caption("p", caption))
  }

  /**
   * `Block`: the dispatch on the block's kind. Children are rendered only for
   * list items, toggles and tables, one block at a time and never grouped.
   */
  function RenderBlock(b: Block): (r: Markup)
    ensures r.Empty? <==> b.content.Unsupported?
    ensures b.content.Paragraph? ==> (r == Spacer <==> |b.content.richText| == 0)
  {
    match b.content
    case Paragraph(rt) =>
      if |rt| == 0 then Spacer else Elem("p", [], RenderRichText(rt))
    case Heading1(rt) => Elem("h1", [], RenderRichText(rt))
    case Heading2(rt) => Elem("h2", [], RenderRichText(rt))
    case Heading3(rt) => Elem("h3", [], RenderRichText(rt))
    case BulletedListItem(rt) =>
      Elem("li", [], RenderRichText(rt) + (match b.children
        case Children(cs) => [Elem("ul", [], RenderAll(cs))]
        case NoChildren => []))
    case NumberedListItem(rt) =>
      Elem("li", [], RenderRichText(rt) + (match b.children
        case Children(cs) => [Elem("ol", [], RenderAll(cs))]
        case NoChildren => []))
    case ToDo(rt, checked) => RenderToDo(rt, checked)
    case Toggle(rt) =>
      Elem("details", [], [Elem("summary", [], RenderRichText(rt))] + (match b.children
        case Children(cs) => [Elem("div", [], RenderAll(cs))]
        case NoChildren => []))
    case Code(rt, language, caption) => RenderCode(rt, language, caption)
    case Image(source, caption) => RenderImage(source, caption)
    case Quote(rt) => Elem("blockquote", [], RenderRichText(rt))
    case Callout(rt, icon) => RenderCallout(rt, icon)
    case Divider => Elem("hr", [], [])
    case Bookmark(url, caption) => RenderBookmark(url, caption)
    case Table =>
      Elem("div", [], [Elem("table", [], [Elem("tbody", [], match b.children
        case Children(cs) => RenderAll(cs)
        case NoChildren => [])])])
    case TableRow(cells) => Elem("tr", [], RenderCells(cells))
    case Unsupported(_) => Empty
  }

  /** Children are rendered one block at a time: one rendering per block, in order. */
  function RenderAll(bs: seq<Block>): (r: seq<Markup>)
    ensures |r| == |bs|
    ensures forall i :: 0 <= i < |bs| ==> r[i] == RenderBlock(bs[i])
  {
    if |bs| == 0 then []
    else
      var r := [RenderBlock(bs[0])] + RenderAll(bs[1..]);
      assert r[1..] == RenderAll(bs[1..]);
      r
  }

  /** A table row: one `td` per cell, each cell an independent rich text run. */
  function RenderCells(cells: seq<Run>): (r: seq<Markup>)
    ensures |r| == |cells|
    ensures forall i :: 0 <= i < |cells| ==> r[i] == Elem("td", [], RenderRichText(cells[i]))
  {
    if |cells| == 0 then []
    else
      var r := [Elem("td", [], RenderRichText(cells[0]))] + RenderCells(cells[1..]);
      assert r[1..] == RenderCells(cells[1..]);
      r
  }

  // ---------------------------------------------------------------------------
  // Top level
  // ---------------------------------------------------------------------------

  /** A render item: a list group becomes a `ul` or `ol` of its items, anything else its block. */
  function RenderItem(g: Grouped): (r: Markup)
    ensures g.Single? ==> r == RenderBlock(g.block)
    ensures g.ListGroup? ==> r.Elem? && r.tag == (if g.kind == Bulleted then "ul" else "ol")
    ensures g.ListGroup? ==> |r.children| == |g.items|
    ensures g.ListGroup? ==> forall j :: 0 <= j < |g.items| ==> r.children[j] == RenderBlock(g.items[j])
  {
    match g
    case Single(b) => RenderBlock(b)
    case ListGroup(Bulleted, items) => Elem("ul", [], RenderAll(items))
    case ListGroup(Numbered, items) => Elem("ol", [], RenderAll(items))
  }

  function RenderItems(gs: seq<Grouped>): (r: seq<Markup>)
    ensures |r| == |gs|
    ensures forall i :: 0 <= i < |gs| ==> r[i] == RenderItem(gs[i])
  {
    if |gs| == 0 then []
    else
      var r := [RenderItem(gs[0])] + RenderItems(gs[1..]);
      assert r[1..] == RenderItems(gs[1..]);
      r
  }

  /**
   * `NotionRenderer`: the top-level blocks are grouped once and each render
   * item is emitted inside the prose container.
   */
  function Render(blocks: seq<Block>): (r: Markup)
    ensures r.Elem? && r.tag == "div"
    ensures |r.children| <= |blocks|
    ensures forall gs :: IsGrouping(blocks, gs) ==> r.children == RenderItems(gs)
  {
    GroupLength(blocks);
    assert forall gs :: IsGrouping(blocks, gs) ==> gs == Group(blocks) by {
      forall gs | IsGrouping(blocks, gs)
        ensures gs == Group(blocks)
      {
        GroupingUnique(blocks, gs);
      }
    }
    Elem("div", [], RenderItems(Group(blocks)))
  }

  /**
   * The page's children are the renderings of the one maximal grouping: any
   * sequence of render items that flattens back to the blocks, is well formed
   * and never leaves two same-kind groups adjacent is what the page emits.
   */
  lemma RenderFollowsGrouping(blocks: seq<Block>, gs: seq<Grouped>)
    requires IsGrouping(blocks, gs)
    ensures Render(blocks).children == RenderItems(gs)
    ensures |Render(blocks).children| == |gs|
  {
    GroupingUnique(blocks, gs);
  }

  // ---------------------------------------------------------------------------
  // What a reader sees
  // ---------------------------------------------------------------------------

  /**
   * The text a block shows, stated without markup: its rich text, the labels
   * and fallbacks the kind adds, and the text of the children it renders.
   */
  function VisibleText(b: Block): string
  {
    match b.content
    case Paragraph(rt) => PlainText(rt)
    case Heading1(rt) => PlainText(rt)
    case Heading2(rt) => PlainText(rt)
    case Heading3(rt) => PlainText(rt)
    case BulletedListItem(rt) => PlainText(rt) + ChildrenText(b.children)
    case NumberedListItem(rt) => PlainText(rt) + ChildrenText(b.children)
    case ToDo(rt, _) => PlainText(rt)
    case Toggle(rt) => PlainText(rt) + ChildrenText(b.children)
    case Code(rt, language, caption) => LanguageLabel(language) + (PlainText(rt) + PlainText(caption))
    case Image(_, caption) => PlainText(caption)
    case Quote(rt) => PlainText(rt)
    case Callout(rt, icon) => CalloutEmoji(icon) + PlainText(rt)
    case Divider => ""
    case Bookmark(url, caption) => url + PlainText(caption)
    case Table => ChildrenText(b.children)
    case TableRow(cells) => CellsText(cells)
    case Unsupported(_) => ""
  }

  function ChildrenText(c: ChildList): string
  {
    match c
    case NoChildren => ""
    case Children(cs) => AllVisibleText(cs)
  }

  function AllVisibleText(bs: seq<Block>): string
  {
    if |bs| == 0 then "" else VisibleText(bs[0]) + AllVisibleText(bs[1..])
  }

  function CellsText(cells: seq<Run>): string
  {
    if |cells| == 0 then "" else PlainText(cells[0]) + CellsText(cells[1..])
  }

  lemma {:induction false} AllVisibleTextAppend(a: seq<Block>, b: seq<Block>)
    ensures AllVisibleText(a + b) == AllVisibleText(a) + AllVisibleText(b)
  {
    if |a| == 0 {
      assert a + b == b;
    } else {
      assert (a + b)[1..] == a[1..] + b;
      AllVisibleTextAppend(a[1..], b);
    }
  }

  lemma {:induction false} CellsTextRendered(cells: seq<Run>)
    ensures TextOfAll(RenderCells(cells)) == CellsText(cells)
  {
    if |cells| > 0 {
      var r := RenderCells(cells);
      assert r == [r[0]] + r[1..];
      TextOfCons(r[0], r[1..]);
      CellsTextRendered(cells[1..]);
    }
  }

  /** The children part of a list item or toggle: the nested container, when present. */
  lemma {:induction false} NestedText(tag: string, c: ChildList, rest: seq<Markup>)
    requires c.Children? ==> TextOfAll(RenderAll(c.items)) == AllVisibleText(c.items)
    ensures TextOfAll(rest + (match c case Children(cs) => [Elem(tag, [], RenderAll(cs))] case NoChildren => []))
         == TextOfAll(rest) + ChildrenText(c)
  {
    match c
    case NoChildren =>
      assert rest + [] == rest;
    case Children(cs) =>
      TextOfAllAppend(rest, [Elem(tag, [], RenderAll(cs))]);
      TextOfSingleton(Elem(tag, [], RenderAll(cs)));
  }

  /** Rendering shows exactly the block's visible text, children included, in order. */
  lemma {:induction false} RenderBlockText(b: Block)
    ensures TextOf(RenderBlock(b)) == VisibleText(b)
    decreases b, 1
  {
    match b.content
    case BulletedListItem(_) => ChildrenTextRendered(b); ListItemText(b);
    case NumberedListItem(_) => ChildrenTextRendered(b); ListItemText(b);
    case Toggle(_) => ChildrenTextRendered(b); ToggleText(b);
    case Table => ChildrenTextRendered(b); TableText(b);
    case _ => LeafText(b);
  }

  /** Kinds that ignore their children show only their own text. */
  lemma LeafText(b: Block)
    requires !(b.content.BulletedListItem? || b.content.NumberedListItem? || b.content.Toggle? || b.content.Table?)
    ensures TextOf(RenderBlock(b)) == VisibleText(b)
  {
    match b.content
    case Paragraph(rt) =>
      if |rt| > 0 { InlineText("p", rt); }
    case Heading1(rt) => InlineText("h1", rt);
    case Heading2(rt) => InlineText("h2", rt);
    case Heading3(rt) => InlineText("h3", rt);
    case Quote(rt) => InlineText("blockquote", rt);
    case TableRow(cells) => RowText(b);
    case ToDo(rt, checked) => WidgetText(b);
    case Code(rt, language, caption) => WidgetText(b);
    case Image(source, caption) => WidgetText(b);
    case Callout(rt, icon) => WidgetText(b);
    case Bookmark(url, caption) => WidgetText(b);
    case Divider =>
    case Unsupported(_) =>
  }

  lemma RowText(b: Block)
    requires b.content.TableRow?
    ensures TextOf(RenderBlock(b)) == VisibleText(b)
  {
    var cells := b.content.cells;
    var tds := RenderCells(cells);
    assert RenderBlock(b) == Elem("tr", [], tds);
    assert TextOf(Elem("tr", [], tds)) == TextOfAll(tds);
    assert VisibleText(b) == CellsText(cells);
    CellsTextRendered(cells);
  }

  /** Kinds drawn by a renderer of their own, whose contract gives the text. */
  lemma WidgetText(b: Block)
    requires b.content.ToDo? || b.content.Code? || b.content.Image? || b.content.Callout? || b.content.Bookmark?
    ensures TextOf(RenderBlock(b)) == VisibleText(b)
  {
    if b.content.ToDo? { ToDoText(b); }
    else if b.content.Code? { CodeText(b); }
    else if b.content.Image? { ImageText(b); }
    else if b.content.Callout? { CalloutText(b); }
    else { BookmarkText(b); }
  }

  lemma ToDoText(b: Block)
    requires b.content.ToDo?
    ensures TextOf(RenderBlock(b)) == VisibleText(b)
  {
    var r := RenderToDo(b.content.richText, b.content.checked);
    assert RenderBlock(b) == r;
    assert TextOf(r) == VisibleText(b);
  }

  lemma CodeText(b: Block)
    requires b.content.Code?
    ensures TextOf(RenderBlock(b)) == VisibleText(b)
  {
    var r := RenderCode(b.content.richText, b.content.language, b.content.caption);
    assert RenderBlock(b) == r;
    assert TextOf(r) == VisibleText(b);
  }

  lemma ImageText(b: Block)
    requires b.content.Image?
    ensures TextOf(RenderBlock(b)) == VisibleText(b)
  {
    ImageRendered(b);
  }

  /** An image block is drawn by `RenderImage` from its source and caption, and shows its caption. */
  lemma ImageRendered(b: Block)
    requires b.content.Image?
    ensures RenderBlock(b) == RenderImage(b.content.source, b.content.caption)
    ensures RenderBlock(b).Elem? && RenderBlock(b).tag == "figure"
    ensures VisibleText(b) == PlainText(b.content.caption)
  {
  }

  lemma CalloutText(b: Block)
    requires b.content.Callout?
    ensures TextOf(RenderBlock(b)) == VisibleText(b)
  {
    var r := RenderCallout(b.content.richText, b.content.icon);
    assert RenderBlock(b) == r;
    assert TextOf(r) == VisibleText(b);
  }

  lemma BookmarkText(b: Block)
    requires b.content.Bookmark?
    ensures TextOf(RenderBlock(b)) == VisibleText(b)
  {
    BookmarkRendered(b);
  }

  /** A bookmark block is drawn by `RenderBookmark` from its URL and caption, and shows both. */
  lemma BookmarkRendered(b: Block)
    requires b.content.Bookmark?
    ensures RenderBlock(b) == RenderBookmark(b.content.url, b.content.caption)
    ensures VisibleText(b) == b.content.url + PlainText(b.content.caption)
  {
  }

  lemma {:induction false} ChildrenTextRendered(b: Block)
    ensures b.children.Children? ==> TextOfAll(RenderAll(b.children.items)) == AllVisibleText(b.children.items)
    decreases b, 0
  {
    if b.children.Children? {
      RenderAllText(b.children.items);
    }
  }

  lemma InlineText(tag: string, rt: Run)
    ensures TextOf(Elem(tag, [], RenderRichText(rt))) == PlainText(rt)
  {
  }

  lemma ListItemText(b: Block)
    requires b.content.BulletedListItem? || b.content.NumberedListItem?
    requires b.children.Children? ==> TextOfAll(RenderAll(b.children.items)) == AllVisibleText(b.children.items)
    ensures TextOf(RenderBlock(b)) == VisibleText(b)
  {
    NestedText(if b.content.BulletedListItem? then "ul" else "ol", b.children, RenderRichText(b.content.richText));
  }

  lemma ToggleText(b: Block)
    requires b.content.Toggle?
    requires b.children.Children? ==> TextOfAll(RenderAll(b.children.items)) == AllVisibleText(b.children.items)
    ensures TextOf(RenderBlock(b)) == VisibleText(b)
  {
    var summary := Elem("summary", [], RenderRichText(b.content.richText));
    NestedText("div", b.children, [summary]);
    TextOfSingleton(summary);
  }

  lemma TableText(b: Block)
    requires b.content.Table?
    requires b.children.Children? ==> TextOfAll(RenderAll(b.children.items)) == AllVisibleText(b.children.items)
    ensures TextOf(RenderBlock(b)) == VisibleText(b)
  {
    var rows := match b.children case Children(cs) => RenderAll(cs) case NoChildren => [];
    var body := Elem("tbody", [], rows);
    var table := Elem("table", [], [body]);
    assert RenderBlock(b) == Elem("div", [], [table]);
    assert TextOfAll(rows) == ChildrenText(b.children);
    TextOfSingleton(body);
    TextOfSingleton(table);
    assert TextOf(table) == TextOfAll(rows);
  }

  lemma {:induction false} RenderAllText(bs: seq<Block>)
    ensures TextOfAll(RenderAll(bs)) == AllVisibleText(bs)
  {
    if |bs| > 0 {
      var r := RenderAll(bs);
      assert r == [r[0]] + r[1..];
      TextOfCons(r[0], r[1..]);
      RenderBlockText(bs[0]);
      RenderAllText(bs[1..]);
    }
  }

  lemma {:induction false} RenderItemsText(gs: seq<Grouped>)
    ensures TextOfAll(RenderItems(gs)) == AllVisibleText(Flatten(gs))
  {
    if |gs| > 0 {
      var r := RenderItems(gs);
      assert r == [r[0]] + r[1..];
      TextOfCons(r[0], r[1..]);
      RenderItemsText(gs[1..]);
      AllVisibleTextAppend(Items(gs[0]), Flatten(gs[1..]));
      match gs[0]
      case Single(b) =>
        RenderBlockText(b);
        assert AllVisibleText([b]) == VisibleText(b) by {
          assert [b][1..] == [];
        }
      case ListGroup(_, items) =>
        RenderAllText(items);
    }
  }

  /**
   * Grouping neither drops, duplicates nor reorders content: the page shows
   * the same text as rendering every top-level block on its own.
   */
  lemma RenderText(blocks: seq<Block>)
    ensures TextOf(Render(blocks)) == AllVisibleText(blocks)
    ensures TextOf(Render(blocks)) == TextOfAll(RenderAll(blocks))
  {
    GroupIsGrouping(blocks);
    RenderItemsText(Group(blocks));
    RenderAllText(blocks);
  }

  // ---------------------------------------------------------------------------
  // Fallbacks and structure
  // ---------------------------------------------------------------------------

  /**
   * The outermost element of each known kind, listed independently of the
   * renderer; `None` for a kind the renderer does not know.
   */
  function KindTag(c: Content): Option<string>
  {
    match c
    case Paragraph(rt) => Some(if |rt| == 0 then "div" else "p")
    case Heading1(_) => Some("h1")
    case Heading2(_) => Some("h2")
    case Heading3(_) => Some("h3")
    case BulletedListItem(_) => Some("li")
    case NumberedListItem(_) => Some("li")
    case ToDo(_, _) => Some("div")
    case Toggle(_) => Some("details")
    case Code(_, _, _) => Some("div")
    case Image(_, _) => Some("figure")
    case Quote(_) => Some("blockquote")
    case Callout(_, _) => Some("div")
    case Divider => Some("hr")
    case Bookmark(_, _) => Some("a")
    case Table => Some("div")
    case TableRow(_) => Some("tr")
    case Unsupported(_) => None
  }

  /** Every known kind renders to an element with its listed tag; an unknown kind renders nothing. */
  lemma BlockElement(b: Block)
    ensures match KindTag(b.content)
      case Some(t) => RenderBlock(b).Elem? && RenderBlock(b).tag == t
      case None => RenderBlock(b).Empty?
  {
    match b.content
    case ToDo(rt, checked) => WidgetElement(b);
    case Code(rt, language, caption) => WidgetElement(b);
    case Image(source, caption) => WidgetElement(b);
    case Callout(rt, icon) => WidgetElement(b);
    case Bookmark(url, caption) => WidgetElement(b);
    case _ => PlainElement(b);
  }

  lemma PlainElement(b: Block)
    requires !(b.content.ToDo? || b.content.Code? || b.content.Image? || b.content.Callout? || b.content.Bookmark?)
    ensures match KindTag(b.content)
      case Some(t) => RenderBlock(b).Elem? && RenderBlock(b).tag == t
      case None => RenderBlock(b).Empty?
  {
    if b.content.Paragraph? || b.content.Heading1? || b.content.Heading2? || b.content.Heading3? || b.content.Quote? {
      InlineElement(b);
    } else if b.content.BulletedListItem? || b.content.NumberedListItem? {
      ListItemShape(b);
    } else {
      ContainerElement(b);
    }
  }

  lemma InlineElement(b: Block)
    requires b.content.Paragraph? || b.content.Heading1? || b.content.Heading2? || b.content.Heading3? || b.content.Quote?
    ensures KindTag(b.content).Some?
    ensures RenderBlock(b).Elem? && RenderBlock(b).tag == KindTag(b.content).value
  {
    if b.content.Paragraph? { ParagraphElement(b); } else { HeadingElement(b); }
  }

  lemma ParagraphElement(b: Block)
    requires b.content.Paragraph?
    ensures KindTag(b.content) == Some(if |b.content.richText| == 0 then "div" else "p")
    ensures RenderBlock(b).Elem? && RenderBlock(b).tag == (if |b.content.richText| == 0 then "div" else "p")
  {
  }

  /** Headings and quotes: one element around the rich text. */
  lemma HeadingElement(b: Block)
    requires b.content.Heading1? || b.content.Heading2? || b.content.Heading3? || b.content.Quote?
    ensures KindTag(b.content).Some?
    ensures RenderBlock(b) == Elem(KindTag(b.content).value, [], RenderRichText(b.content.richText))
  {
  }

  lemma ContainerElement(b: Block)
    requires b.content.Toggle? || b.content.Table? || b.content.TableRow? || b.content.Divider? || b.content.Unsupported?
    ensures match KindTag(b.content)
      case Some(t) => RenderBlock(b).Elem? && RenderBlock(b).tag == t
      case None => RenderBlock(b).Empty?
  {
    var r := RenderBlock(b);
    match b.content
    case Toggle(_) => assert r.Elem? && r.tag == "details";
    case Table => assert r.Elem? && r.tag == "div";
    case TableRow(cells) => assert r == Elem("tr", [], RenderCells(cells));
    case Divider => assert r == Elem("hr", [], []);
    case Unsupported(_) =>
  }

  lemma WidgetElement(b: Block)
    requires b.content.ToDo? || b.content.Code? || b.content.Image? || b.content.Callout? || b.content.Bookmark?
    ensures match KindTag(b.content)
      case Some(t) => RenderBlock(b).Elem? && RenderBlock(b).tag == t
      case None => RenderBlock(b).Empty?
  {
    if b.content.ToDo? { ToDoElement(b); }
    else if b.content.Code? { CodeElement(b); }
    else if b.content.Image? { ImageElement(b); }
    else if b.content.Callout? { CalloutElement(b); }
    else { BookmarkElement(b); }
  }

  lemma ToDoElement(b: Block)
    requires b.content.ToDo?
    ensures KindTag(b.content) == Some("div")
    ensures RenderBlock(b).Elem? && RenderBlock(b).tag == "div"
  {
    var r := RenderToDo(b.content.richText, b.content.checked);
    assert RenderBlock(b) == r;
  }

  lemma CodeElement(b: Block)
    requires b.content.Code?
    ensures KindTag(b.content) == Some("div")
    ensures RenderBlock(b).Elem? && RenderBlock(b).tag == "div"
  {
    var r := RenderCode(b.content.richText, b.content.language, b.content.caption);
    assert RenderBlock(b) == r;
  }

  lemma ImageElement(b: Block)
    requires b.content.Image?
    ensures KindTag(b.content) == Some("figure")
    ensures RenderBlock(b).Elem? && RenderBlock(b).tag == "figure"
  {
    assert KindTag(b.content) == Some("figure");
    ImageRendered(b);
  }

  lemma CalloutElement(b: Block)
    requires b.content.Callout?
    ensures KindTag(b.content) == Some("div")
    ensures RenderBlock(b).Elem? && RenderBlock(b).tag == "div"
  {
    var r := RenderCallout(b.content.richText, b.content.icon);
    assert RenderBlock(b) == r;
  }

  lemma BookmarkElement(b: Block)
    requires b.content.Bookmark?
    ensures KindTag(b.content) == Some("a")
    ensures RenderBlock(b).Elem? && RenderBlock(b).tag == "a"
  {
    BookmarkRendered(b);
  }

  /** The image's `src` follows the file variant; `alt` is the caption's text or the placeholder. */
  lemma ImageAttributes(b: Block)
    requires b.content.Image?
    ensures var alt := if |b.content.caption| == 0 then ImagePlaceholder else PlainText(b.content.caption);
      FindTag(RenderBlock(b), "img") == Some(Elem("img", [("src", b.content.source.url), ("alt", alt)], []))
  {
    var source, caption := b.content.source, b.content.caption;
    var alt := if |caption| == 0 then ImagePlaceholder else PlainText(caption);
    assert RenderBlock(b) == RenderImage(source, caption);
    assert ImageAlt(caption) == alt;
    assert ImageUrl(source) == source.url;
  }

  /** A code block's label is its language, or `plaintext` when the language is empty. */
  lemma CodeLanguageShown(b: Block)
    requires b.content.Code?
    ensures var shown := if b.content.language == "" then DefaultLanguage else b.content.language;
      FindTag(RenderBlock(b), "span") == Some(Elem("span", [], [Text(shown)]))
  {
    assert RenderBlock(b) == RenderCode(b.content.richText, b.content.language, b.content.caption);
  }

  /** A callout shows its emoji icon, or the light bulb when it has none. */
  lemma CalloutIconShown(b: Block)
    requires b.content.Callout?
    ensures var icon := b.content.icon;
      var emoji := if icon.Some? && icon.value.Emoji? then icon.value.emoji else CalloutPlaceholder;
      FindTag(RenderBlock(b), "span") == Some(Elem("span", [], [Text(emoji)]))
  {
    assert RenderBlock(b) == RenderCallout(b.content.richText, b.content.icon);
  }

  /** Children matter only to list items, toggles and tables; every other kind ignores them. */
  lemma ChildrenIgnored(b: Block, c: ChildList)
    requires !(b.content.BulletedListItem? || b.content.NumberedListItem? || b.content.Toggle? || b.content.Table?)
    ensures RenderBlock(b.(children := c)) == RenderBlock(b)
  {
  }

  /**
   * Nested children are not regrouped: a numbered child of a bulleted item
   * becomes a bare `li` inside the parent's `ul`.
   */
  lemma NestedItemsNotRegrouped(parent: Block, child: Block)
    requires parent.content.BulletedListItem? && parent.children == Children([child])
    requires child.content.NumberedListItem?
    ensures RenderBlock(parent).Elem? && |RenderBlock(parent).children| > 0
    ensures var cs := RenderBlock(parent).children; cs[|cs| - 1] == Elem("ul", [], [RenderBlock(child)])
    ensures RenderBlock(child).Elem? && RenderBlock(child).tag == "li"
  {
    var lead := RenderRichText(parent.content.richText);
    var nested := RenderAll([child]);
    assert nested == [RenderBlock(child)];
    var cs := lead + [Elem("ul", [], nested)];
    BulletedItemShape(parent);
    assert RenderBlock(parent) == Elem("li", [], cs);
    assert cs[|cs| - 1] == Elem("ul", [], nested);
    ListItemShape(child);
  }

  lemma BulletedItemShape(b: Block)
    requires b.content.BulletedListItem? && b.children.Children?
    ensures RenderBlock(b) == Elem("li", [], RenderRichText(b.content.richText) + [Elem("ul", [], RenderAll(b.children.items))])
  {
  }

  lemma NumberedItemShape(b: Block)
    requires b.content.NumberedListItem? && b.children.Children?
    ensures RenderBlock(b) == Elem("li", [], RenderRichText(b.content.richText) + [Elem("ol", [], RenderAll(b.children.items))])
  {
  }

  /** A toggle opens with its `summary`; the children follow in one `div` when attached. */
  lemma ToggleShape(b: Block)
    requires b.content.Toggle?
    ensures RenderBlock(b).Elem? && RenderBlock(b).tag == "details"
    ensures |RenderBlock(b).children| == (if b.children.Children? then 2 else 1)
    ensures RenderBlock(b).children[0] == Elem("summary", [], RenderRichText(b.content.richText))
    ensures b.children.Children? ==> RenderBlock(b).children[1] == Elem("div", [], RenderAll(b.children.items))
  {
  }

  /** A list item without children has no nested list: just the `li` around its text. */
  lemma ChildlessItemShape(b: Block)
    requires b.content.BulletedListItem? || b.content.NumberedListItem?
    requires b.children.NoChildren?
    ensures RenderBlock(b) == Elem("li", [], RenderRichText(b.content.richText))
  {
    assert RenderRichText(b.content.richText) + [] == RenderRichText(b.content.richText);
  }

  /**
   * A table is a `div` around a `table` around a `tbody` holding its rows,
   * each rendered on its own and never grouped; no rows without children.
   */
  lemma TableShape(b: Block)
    requires b.content.Table?
    ensures RenderBlock(b) == Elem("div", [], [Elem("table", [], [Elem("tbody", [], if b.children.Children? then RenderAll(b.children.items) else [])])])
  {
  }

  lemma ListItemShape(b: Block)
    requires b.content.BulletedListItem? || b.content.NumberedListItem?
    ensures RenderBlock(b).Elem? && RenderBlock(b).tag == "li"
  {
  }

  /** At the top level the same numbered block is wrapped in an `ol` of its own. */
  lemma TopLevelItemWrapped(child: Block)
    requires child.content.NumberedListItem?
    ensures Render([child]).children == [Elem("ol", [], [RenderBlock(child)])]
  {
    GroupCons(child, []);
    assert [child] + [] == [child];
    assert Group([child]) == [ListGroup(Numbered, [child])];
    assert RenderAll([child]) == [RenderBlock(child)];
    assert RenderItems([ListGroup(Numbered, [child])]) == [Elem("ol", [], [RenderBlock(child)])];
  }

  /**
   * Bullet, bullet, paragraph, bullet, number, number: the page holds a `ul`
   * of two items, the paragraph, a `ul` of one item and an `ol` of two items.
   */
  lemma MixedRunRendered(b1: Block, b2: Block, p: Block, b3: Block, n1: Block, n2: Block)
    requires ListKindOf(b1) == ListKindOf(b2) == ListKindOf(b3) == Some(Bulleted)
    requires ListKindOf(p).None?
    requires ListKindOf(n1) == ListKindOf(n2) == Some(Numbered)
    ensures Render([b1, b2, p, b3, n1, n2]) == Elem("div", [], [
              Elem("ul", [], [RenderBlock(b1), RenderBlock(b2)]),
              RenderBlock(p),
              Elem("ul", [], [RenderBlock(b3)]),
              Elem("ol", [], [RenderBlock(n1), RenderBlock(n2)])])
  {
    MixedRunExample(b1, b2, p, b3, n1, n2);
    var blocks := [b1, b2, p, b3, n1, n2];
    var gs := [ListGroup(Bulleted, [b1, b2]), Single(p), ListGroup(Bulleted, [b3]), ListGroup(Numbered, [n1, n2])];
    assert Render(blocks).children == RenderItems(gs);
    RenderFourItems(gs);
    ListGroupRendered(Bulleted, [b1, b2]);
    ListGroupRendered(Bulleted, [b3]);
    ListGroupRendered(Numbered, [n1, n2]);
  }

  lemma RenderFourItems(gs: seq<Grouped>)
    requires |gs| == 4
    ensures RenderItems(gs) == [RenderItem(gs[0]), RenderItem(gs[1]), RenderItem(gs[2]), RenderItem(gs[3])]
  {
  }

  lemma ListGroupRendered(kind: ListKind, items: seq<Block>)
    requires 1 <= |items| <= 2
    ensures RenderItem(ListGroup(kind, items))
         == Elem(if kind == Bulleted then "ul" else "ol", [], if |items| == 1 then [RenderBlock(items[0])] else [RenderBlock(items[0]), RenderBlock(items[1])])
  {
  }

  /** Heading "Intro", an empty paragraph and paragraph "Hello" render as h1, spacer, p. */
  lemma HeadingSpacerParagraphExample()
    ensures var intro := RichTextItem("Intro", Plain, None);
      var hello := RichTextItem("Hello", Plain, None);
      var blocks := [Block("a", Heading1([intro]), NoChildren),
                     Block("b", Paragraph([]), NoChildren),
                     Block("c", Paragraph([hello]), NoChildren)];
      Render(blocks) == Elem("div", [], [
        Elem("h1", [], [Elem("span", [], [Text("Intro")])]),
        Spacer,
        Elem("p", [], [Elem("span", [], [Text("Hello")])])])
  {
    var intro := RichTextItem("Intro", Plain, None);
    var hello := RichTextItem("Hello", Plain, None);
    var h := Block("a", Heading1([intro]), NoChildren);
    var e := Block("b", Paragraph([]), NoChildren);
    var p := Block("c", Paragraph([hello]), NoChildren);
    GroupCons(p, []);
    assert [p] + [] == [p];
    GroupCons(e, [p]);
    assert [e] + [p] == [e, p];
    GroupCons(h, [e, p]);
    assert [h] + [e, p] == [h, e, p];
    assert Group([h, e, p]) == [Single(h), Single(e), Single(p)];
    assert RenderFragment(intro) == Elem("span", [], [Text("Intro")]);
    assert RenderFragment(hello) == Elem("span", [], [Text("Hello")]);
    assert RenderRichText([intro]) == [RenderFragment(intro)];
    assert RenderRichText([hello]) == [RenderFragment(hello)];
    var items := RenderItems([Single(h), Single(e), Single(p)]);
    assert items == [RenderBlock(h), RenderBlock(e), RenderBlock(p)];
    assert RenderBlock(h) == Elem("h1", [], [Elem("span", [], [Text("Intro")])]);
    assert RenderBlock(e) == Spacer;
    assert RenderBlock(p) == Elem("p", [], [Elem("span", [], [Text("Hello")])]);
  }

  /** Bold, italic and a link: the anchor outermost, bold innermost next to the span. */
  lemma BoldItalicLinkExample(t: RichTextItem)
    requires t.annotations == Annotations(true, true, false, false, false)
    requires t.href.Some? && t.href.value != ""
    ensures TagPath(RenderFragment(t)) == ["a", "em", "strong", "span"]
  {
    FragmentTags(t);
    assert StyledTags(t.annotations) == ["em", "strong", "span"];
    assert ExpectedTags(t) == ["a"] + ["em", "strong", "span"];
  }

  /** `code` discards the other style wrappers; only a link still goes around it. */
  lemma CodeDiscardsStyles(t: RichTextItem)
    requires t.annotations.code
    ensures TagPath(RenderFragment(t)) == (if HasLink(t) then ["a", "code"] else ["code"])
  {
    FragmentTags(t);
  }
}

=== FILE: post.dfy ===
/**
 * `parsePost`: projecting a page's property bag onto the fixed `Post`
 * record. The bag is the ordered entry list `Object.entries` walks; every
 * field takes the first entry that qualifies and stops there.
 */
module PostModel {
  import opened Wrappers
  import opened RichText
  import opened Blocks

  datatype SelectOption = SelectOption(name: string)

  datatype DateValue = DateValue(start: string)

  /** A typed property value; `OtherProp` is every type `parsePost` never reads. */
  datatype Prop =
    | TitleProp(title: Run)
    | RichTextProp(richText: Run)
    | SelectProp(select: Option<SelectOption>)
    | MultiSelectProp(multiSelect: seq<SelectOption>)
    | DateProp(date: Option<DateValue>)
    | OtherProp(kind: string)

  /** A property name and its value, in the bag's iteration order. */
  type Entry = (string, Prop)

  datatype Page = Page(id: string, properties: seq<Entry>, cover: Option<FileSource>)

  datatype Post = Post(
    id: string,
    slug: string,
    title: string,
    description: string,
    category: Option<string>,
    tags: seq<string>,
    publishedAt: Option<string>,
    status: string,
    coverImage: Option<string>)

  const DefaultTitle := "제목 없음"
  const DefaultStatus := "Draft"

  // ---------------------------------------------------------------------------
  // First match in iteration order
  // ---------------------------------------------------------------------------

  /** `i` is the first entry satisfying `p`. */
  ghost predicate IsFirst(entries: seq<Entry>, p: Entry -> bool, i: int)
  {
    0 <= i < |entries| && p(entries[i]) && forall j :: 0 <= j < i ==> !p(entries[j])
  }

  ghost predicate NoMatch(entries: seq<Entry>, p: Entry -> bool)
  {
    forall j :: 0 <= j < |entries| ==> !p(entries[j])
  }

  /** The walk over the properties in iteration order that stops at the first hit. */
  function FindFirst(entries: seq<Entry>, p: Entry -> bool): (r: Option<nat>)
    ensures r.Some? ==> IsFirst(entries, p, r.value)
    ensures r.None? ==> NoMatch(entries, p)
  {
    if |entries| == 0 then None
    else if p(entries[0]) then Some(0)
    else match FindFirst(entries[1..], p)
      case Some(i) => Some(i + 1)
      case None => None
  }

  /** Entries after a match are never looked at. */
  lemma {:induction false} FindFirstIgnoresLater(entries: seq<Entry>, later: seq<Entry>, p: Entry -> bool)
    requires FindFirst(entries, p).Some?
    ensures FindFirst(entries + later, p) == FindFirst(entries, p)
  {
    assert (entries + later)[0] == entries[0];
    if !p(entries[0]) {
      assert (entries + later)[1..] == entries[1..] + later;
      FindFirstIgnoresLater(entries[1..], later, p);
    }
  }

  /** Entries that do not qualify only shift the position of the match. */
  lemma {:induction false} FindFirstSkipsNonMatching(skipped: seq<Entry>, entries: seq<Entry>, p: Entry -> bool)
    requires NoMatch(skipped, p)
    ensures FindFirst(skipped + entries, p) ==
      match FindFirst(entries, p)
      case Some(i) => Some(i + |skipped|)
      case None => None
  {
    if |skipped| == 0 {
      assert skipped + entries == entries;
    } else {
      var all := skipped + entries;
      assert all[0] == skipped[0] && !p(skipped[0]);
      assert all[1..] == skipped[1..] + entries;
      assert NoMatch(skipped[1..], p);
      FindFirstSkipsNonMatching(skipped[1..], entries, p);
      assert FindFirst(all, p) == match FindFirst(all[1..], p) case Some(i) => Some(i + 1) case None => None;
    }
  }

  // ---------------------------------------------------------------------------
  // Fields
  // ---------------------------------------------------------------------------

  /** How many times `c` occurs in `s`. */
  function Occurrences(s: string, c: char): nat
  {
    if |s| == 0 then 0 else (if s[0] == c then 1 else 0) + Occurrences(s[1..], c)
  }

  lemma OccurrencesCons(x: char, s: string)
    ensures forall c :: Occurrences([x] + s, c) == (if x == c then 1 else 0) + Occurrences(s, c)
  {
    assert ([x] + s)[1..] == s;
  }

  /** The page id with every dash removed. */
  function Slug(id: string): (r: string)
    ensures '-' !in r
    ensures |r| == |id| - Occurrences(id, '-')
    ensures forall c :: c != '-' ==> Occurrences(r, c) == Occurrences(id, c)
  {
    if |id| == 0 then ""
    else
      assert id == [id[0]] + id[1..];
      OccurrencesCons(id[0], id[1..]);
      OccurrencesCons(id[0], Slug(id[1..]));
      if id[0] == '-' then Slug(id[1..]) else [id[0]] + Slug(id[1..])
  }

  /** One character in front: a dash is dropped, anything else is kept. */
  lemma SlugCons(c: char, s: string)
    ensures Slug([c] + s) == if c == '-' then Slug(s) else [c] + Slug(s)
  {
    var cs := [c] + s;
    assert cs[0] == c && cs[1..] == s;
  }

  /** Removing dashes works piecewise, so the slug keeps the id's order. */
  lemma {:induction false} SlugAppend(a: string, b: string)
    ensures Slug(a + b) == Slug(a) + Slug(b)
  {
    if |a| > 0 {
      var c, tail := a[0], a[1..];
      assert a == [c] + tail && a + b == [c] + (tail + b);
      SlugCons(c, tail + b);
      SlugCons(c, tail);
      SlugAppend(tail, b);
    } else {
      assert a + b == b;
    }
  }

  /** An id with no dash is its own slug, so slugs are fixed points. */
  lemma {:induction false} SlugOfDashFree(id: string)
    requires '-' !in id
    ensures Slug(id) == id
  {
    if |id| > 0 {
      assert id == [id[0]] + id[1..];
      assert id[0] != '-';
      assert '-' !in id[1..];
      SlugOfDashFree(id[1..]);
    }
  }

  lemma SlugIdempotent(id: string)
    ensures Slug(Slug(id)) == Slug(id)
  {
    SlugOfDashFree(Slug(id));
  }

  predicate IsTitleEntry(e: Entry)
  {
    e.1.TitleProp? && |e.1.title| > 0
  }

  /** The first non-empty `title` property's plain text, whatever its name; `제목 없음` when none. */
  function TitleOf(entries: seq<Entry>): (r: string)
    ensures NoMatch(entries, IsTitleEntry) ==> r == "제목 없음"
    ensures forall i :: IsFirst(entries, IsTitleEntry, i) ==> r == PlainText(entries[i].1.title)
  {
    match FindFirst(entries, IsTitleEntry)
    case Some(i) => PlainText(entries[i].1.title)
    case None => DefaultTitle
  }

  predicate IsCategoryEntry(e: Entry)
  {
    e.1.SelectProp? && (e.0 == "Category" || e.0 == "카테고리")
  }

  /** The first `select` named Category/카테고리: its option's name, or `null` when it has none. */
  function CategoryOf(entries: seq<Entry>): (r: Option<string>)
    ensures NoMatch(entries, IsCategoryEntry) ==> r.None?
    ensures forall i :: IsFirst(entries, IsCategoryEntry, i) ==>
      (r.Some? <==> entries[i].1.select.Some?) &&
      (r.Some? ==> r.value == entries[i].1.select.value.name)
  {
    match FindFirst(entries, IsCategoryEntry)
    case Some(i) =>
      (match entries[i].1.select
       case Some(option) => Some(option.name)
       case None => None)
    case None => None
  }

  predicate IsTagsEntry(e: Entry)
  {
    e.1.MultiSelectProp? && (e.0 == "Tags" || e.0 == "태그")
  }

  /** The names of the selected options, in order. */
  function OptionNames(options: seq<SelectOption>): (r: seq<string>)
    ensures |r| == |options|
    ensures forall j :: 0 <= j < |options| ==> r[j] == options[j].name
  {
    if |options| == 0 then []
    else
      var r := [options[0].name] + OptionNames(options[1..]);
      assert r[1..] == OptionNames(options[1..]);
      r
  }

  /** The option names of the first `multi_select` named Tags/태그, in order; `[]` when none. */
  function TagsOf(entries: seq<Entry>): (r: seq<string>)
    ensures NoMatch(entries, IsTagsEntry) ==> r == []
    ensures forall i :: IsFirst(entries, IsTagsEntry, i) ==>
      |r| == |entries[i].1.multiSelect| &&
      forall j :: 0 <= j < |r| ==> r[j] == entries[i].1.multiSelect[j].name
  {
    match FindFirst(entries, IsTagsEntry)
    case Some(i) => OptionNames(entries[i].1.multiSelect)
    case None => []
  }

  /** A date property whose start is present and non-empty. */
  predicate IsDateEntry(e: Entry)
  {
    e.1.DateProp? && e.1.date.Some? && e.1.date.value.start != ""
  }

  /** The start of the first `date` property that has one, whatever its name; `null` when none. */
  function PublishedAtOf(entries: seq<Entry>): (r: Option<string>)
    ensures NoMatch(entries, IsDateEntry) ==> r.None?
    ensures forall i :: IsFirst(entries, IsDateEntry, i) ==> r == Some(entries[i].1.date.value.start)
    ensures r.Some? ==> r.value != ""
  {
    match FindFirst(entries, IsDateEntry)
    case Some(i) => Some(entries[i].1.date.value.start)
    case None => None
  }

  predicate IsStatusEntry(e: Entry)
  {
    e.1.SelectProp? && (e.0 == "Status" || e.0 == "상태")
  }

  /** The first `select` named Status/상태: its option's name, `Draft` when it has none or there is none. */
  function StatusOf(entries: seq<Entry>): (r: string)
    ensures NoMatch(entries, IsStatusEntry) ==> r == "Draft"
    ensures forall i :: IsFirst(entries, IsStatusEntry, i) ==>
      r == (if entries[i].1.select.Some? then entries[i].1.select.value.name else "Draft")
  {
    match FindFirst(entries, IsStatusEntry)
    case Some(i) =>
      (match entries[i].1.select
       case Some(option) => option.name
       case None => DefaultStatus)
    case None => DefaultStatus
  }

  predicate IsDescriptionEntry(e: Entry)
  {
    e.1.RichTextProp? && |e.1.richText| > 0
  }

  /** The first non-empty `rich_text` property's plain text, whatever its name; `""` when none. */
  function DescriptionOf(entries: seq<Entry>): (r: string)
    ensures NoMatch(entries, IsDescriptionEntry) ==> r == ""
    ensures forall i :: IsFirst(entries, IsDescriptionEntry, i) ==> r == PlainText(entries[i].1.richText)
  {
    match FindFirst(entries, IsDescriptionEntry)
    case Some(i) => PlainText(entries[i].1.richText)
    case None => ""
  }

  /** The cover's URL by variant, `null` without a cover. */
  function CoverImageOf(cover: Option<FileSource>): (r: Option<string>)
    ensures r.Some? <==> cover.Some?
    ensures cover.Some? && cover.value.External? ==> r == Some(cover.value.url)
    ensures cover.Some? && cover.value.File? ==> r == Some(cover.value.url)
  {
    match cover
    case None => None
    case Some(External(url)) => Some(url)
    case Some(File(url)) => Some(url)
  }

  /**
   * `parsePost`: the id is kept, the slug is the dash-free id, and every
   * field falls back to its literal default when no entry qualifies.
   */
  function ParsePost(page: Page): (r: Post)
    ensures r.id == page.id
    ensures r.slug == Slug(page.id)
    ensures '-' !in r.slug && |r.slug| == |page.id| - Occurrences(page.id, '-')
    ensures NoMatch(page.properties, IsTitleEntry) ==> r.title == "제목 없음"
    ensures forall i :: IsFirst(page.properties, IsTitleEntry, i) ==> r.title == PlainText(page.properties[i].1.title)
    ensures NoMatch(page.properties, IsDescriptionEntry) ==> r.description == ""
    ensures forall i :: IsFirst(page.properties, IsDescriptionEntry, i) ==>
      r.description == PlainText(page.properties[i].1.richText)
    ensures NoMatch(page.properties, IsCategoryEntry) ==> r.category.None?
    ensures forall i :: IsFirst(page.properties, IsCategoryEntry, i) ==>
      r.category == (match page.properties[i].1.select case Some(o) => Some(o.name) case None => None)
    ensures NoMatch(page.properties, IsTagsEntry) ==> r.tags == []
    ensures forall i :: IsFirst(page.properties, IsTagsEntry, i) ==>
      |r.tags| == |page.properties[i].1.multiSelect| &&
      forall j :: 0 <= j < |r.tags| ==> r.tags[j] == page.properties[i].1.multiSelect[j].name
    ensures NoMatch(page.properties, IsDateEntry) ==> r.publishedAt.None?
    ensures forall i :: IsFirst(page.properties, IsDateEntry, i) ==> r.publishedAt == Some(page.properties[i].1.date.value.start)
    ensures NoMatch(page.properties, IsStatusEntry) ==> r.status == "Draft"
    ensures forall i :: IsFirst(page.properties, IsStatusEntry, i) ==>
      r.status == (match page.properties[i].1.select case Some(o) => o.name case None => "Draft")
    ensures page.cover.None? <==> r.coverImage.None?
    ensures page.cover.Some? ==> r.coverImage == Some(page.cover.value.url)
  {
    var entries := page.properties;
    var slug := Slug(page.id);
    var title := TitleOf(entries);
    var description := DescriptionOf(entries);
    var category := CategoryOf(entries);
    var tags := TagsOf(entries);
    var publishedAt := PublishedAtOf(entries);
    var status := StatusOf(entries);
    var coverImage := CoverImageOf(page.cover);
    Post(page.id, slug, title, description, category, tags, publishedAt, status, coverImage)
  }

  /** `richTextToPlainText` is the same join the title and description use. */
  function RichTextToPlainText(rt: Run): (r: string)
    ensures |r| == TotalLength(rt)
    ensures forall a, b :: rt == a + b ==> r == PlainText(a) + PlainText(b)
  {
    PlainTextLength(rt);
    forall a, b | rt == a + b ensures PlainText(rt) == PlainText(a) + PlainText(b) {
      PlainTextAppend(a, b);
    }
    PlainText(rt)
  }

  // ---------------------------------------------------------------------------
  // Examples
  // ---------------------------------------------------------------------------

  /** A select named 카테고리 is found when no property is named Category. */
  lemma KoreanCategoryExample(title: Run)
    ensures var entries := [("Name", TitleProp(title)), ("카테고리", SelectProp(Some(SelectOption("Tech"))))];
      CategoryOf(entries) == Some("Tech")
  {
    var entries := [("Name", TitleProp(title)), ("카테고리", SelectProp(Some(SelectOption("Tech"))))];
    assert IsFirst(entries, IsCategoryEntry, 1);
  }

  /** A matched category with no option stops the search: a later alias is not consulted. */
  lemma EmptyCategoryStopsSearch()
    ensures var entries := [("Category", SelectProp(None)), ("카테고리", SelectProp(Some(SelectOption("Tech"))))];
      CategoryOf(entries) == None && StatusOf(entries) == "Draft"
  {
    var entries := [("Category", SelectProp(None)), ("카테고리", SelectProp(Some(SelectOption("Tech"))))];
    assert IsFirst(entries, IsCategoryEntry, 0);
    assert NoMatch(entries, IsStatusEntry);
  }

  /** A date property without a start is skipped in favour of a later one. */
  lemma DateWithoutStartSkipped(name: string, later: seq<Entry>)
    ensures PublishedAtOf([(name, DateProp(None))] + later) == PublishedAtOf(later)
  {
    FindFirstSkipsNonMatching([(name, DateProp(None))], later, IsDateEntry);
  }
}

=== FILE: rich_text.dfy ===
/**
 * Rich text runs as the content API hands them over: an ordered sequence of
 * fragments, each with its plain text, five style flags and an optional link.
 */
module RichText {
  import opened Wrappers

  /** The style flags of one fragment (`annotations` in the API). */
  datatype Annotations = Annotations(
    bold: bool,
    italic: bool,
    strikethrough: bool,
    underline: bool,
    code: bool)

  const Plain := Annotations(false, false, false, false, false)

  /** One fragment; `href` is `None` for the API's `null`. */
  datatype RichTextItem = RichTextItem(plainText: string, annotations: Annotations, href: Option<string>)

  type Run = seq<RichTextItem>

  /** `richTextToPlainText`: the fragments' texts joined with no separator. */
  function PlainText(rt: Run): string
  {
    if |rt| == 0 then "" else rt[0].plainText + PlainText(rt[1..])
  }

  /** Joining distributes over concatenation of runs. */
  lemma {:induction false} PlainTextAppend(a: Run, b: Run)
    ensures PlainText(a + b) == PlainText(a) + PlainText(b)
  {
    if |a| == 0 {
      assert a + b == b;
    } else {
      assert (a + b)[1..] == a[1..] + b;
      PlainTextAppend(a[1..], b);
    }
  }

  /** The joined text is exactly as long as all fragment texts together. */
  function TotalLength(rt: Run): nat
  {
    if |rt| == 0 then 0 else |rt[0].plainText| + TotalLength(rt[1..])
  }

  lemma {:induction false} PlainTextLength(rt: Run)
    ensures |PlainText(rt)| == TotalLength(rt)
  {
    if |rt| > 0 {
      PlainTextLength(rt[1..]);
    }
  }

  /** Each fragment's text sits, unchanged, after the texts of the fragments before it. */
  lemma PlainTextFragment(rt: Run, i: nat)
    requires i < |rt|
    ensures PlainText(rt) == PlainText(rt[..i]) + rt[i].plainText + PlainText(rt[i + 1..])
  {
    assert rt == rt[..i] + rt[i..];
    PlainTextAppend(rt[..i], rt[i..]);
    assert rt[i..][1..] == rt[i + 1..];
  }
}

=== FILE: wrappers.dfy ===
/** The optional value used wherever the source has `T | null` or `T | undefined`. */
module Wrappers {

  datatype Option<+T> = None | Some(value: T)
}
